=== FILE: README.md ===
# Task priority analyzer — a verified model

This project models the core of a small task-prioritisation web application in Dafny:

- a Django backend whose tasks have a due date, estimated hours, an importance from 1 to 10, and dependencies on other tasks;
- a browser frontend that shows the scored tasks and imports tasks from pasted JSON.

The model covers these parts:

- **Scoring.** `calculate_priority_score` is modelled over exact reals, before its final rounding. It covers the blocking rule, the urgency, importance and effort terms, and the explanation text.
- **Cycle check.** `detect_cycle` is modelled as a depth-first search that threads its `path` and `visited` sets. It is proved correct against a graph definition: it reports a cycle exactly when a cycle can be reached from the start.
- **Task table.** The table is a sequence of rows in primary-key order, plus the next auto-increment key. The model states the guarantees the database keeps: unique increasing keys, foreign keys, and no repeated link.
- **Request handlers.** These are pure functions from the table to a response and the table afterwards: list, create, analyze, suggest, complete and delete. Creation follows Django's autocommit. Every statement that succeeded stays, even when the request then fails.
- **Frontend decisions.** The model covers:
  - the re-sort by strategy;
  - the card class and score label;
  - the explanation fallback;
  - which dependency options stay selected;
  - the whole JSON import loop, with its notifications.

The server's answer to each import request is a parameter, indexed by the entry's position, because the network is outside the model.

The JSON import makes one pass over the array, in order. It POSTs each entry that passes the client checks on its own, and forwards the entry's `dependencies` array unchanged.

`task_list` returns `None` for a method other than GET or POST. That is the `NoResponse` case of `Writes.TaskListEndpoint`.

Files:

| file | module | contents |
|---|---|---|
| wrappers.dfy | Wrappers | `Option`, `Result` |
| strings.dfy | Strings | decimal text of integers, `join` |
| seqs.dfy | Seqs | order-preserving filter |
| sorting.dfy | Sorting | stable insertion sort by a key, key classes |
| graph.dfy | DependencyGraph | walks, reachable cycles, subgraphs |
| cycle.dfy | CycleDetection | `detect_cycle` and its correctness |
| models.dfy | Models | `Task`, the table, lookup, the graph of the table |
| scoring.dfy | Scoring | `calculate_priority_score` |
| views.dfy | Views | list, analyze and suggest |
| writes.dfy | Writes | create, complete and delete, and what they preserve |
| frontend.dfy | Frontend | strategy sort, card class, labels, dropdown selection |
| jsonimport.dfy | JsonImport | `handleJsonImport` |

## Model

| member | source | states |
|---|---|---|
| Strings.ParseNatToString | backend/task_analyzer/scoring.py:68 | The day count printed in the overdue message reads back as the same number, so the text names the count exactly. |
| Strings.IntToStringInjective | frontend/scripts.js:231-238 | Two task ids with the same `String(id)` text are the same id. |
| Strings.JoinPrefix | frontend/scripts.js:395-397 | The join of the first k errors is a prefix of the join of all of them. |
| Seqs.FilterMembership | backend/tasks/views.py:11 | A filtered query holds exactly the rows of the table that satisfy the condition. |
| Seqs.FilterChain | backend/tasks/views.py:11 | A filtered query keeps the table's order among the rows it keeps. |
| Sorting.SortByCorrect | backend/tasks/views.py:68 | The sort orders by its key and is stable: each class of equal keys keeps its input order. |
| CycleDetection.Visit | backend/task_analyzer/scoring.py:3-19 | One call never shrinks `visited`. A node on `path` reports a cycle. A node already visited and not on `path` returns False with both sets unchanged. A search that finds nothing restores `path` and leaves the node visited. |
| CycleDetection.VisitList | backend/task_analyzer/scoring.py:15-17 | The dependency loop stops at the first cycle. If it finds none, `path` is as before and every dependency has been visited. |
| CycleDetection.VisitSound | backend/task_analyzer/scoring.py:8-17 | Whenever the search reports a cycle, a walk from the start revisits a node. |
| CycleDetection.VisitComplete | backend/task_analyzer/scoring.py:10-19 | When the search reports no cycle, no cycle is reachable from the node, and the finished nodes stay cycle-free. |
| CycleDetection.DetectCycle | backend/task_analyzer/scoring.py:3-19 | A task with no row in the graph, or with no links, is never reported; a task that links to itself always is. |
| CycleDetection.DetectCycleCorrect | backend/task_analyzer/scoring.py:3-19 | `detect_cycle(task)` is True exactly when a cycle A -> ... -> A can be reached from the task. |
| CycleDetection.SelfDependencyDetected | backend/task_analyzer/scoring.py:8-16 | A task that depends on itself is reported as a cycle. |
| Models.ValidBoundsInclusive | backend/tasks/models.py:5-13 | The declared bounds are inclusive: a 200-character title, 0.1 hours and importance 1 or 10 are valid, and one step past any bound is not; an empty title is not valid either. |
| Models.Find | backend/tasks/views.py:96 | `get(id=...)` finds nothing exactly when no row has the key; what it finds is a row with that key. |
| Models.DepRowsOf | backend/tasks/models.py:14-19 | The dependency rows are the existing rows whose keys the task links to. |
| Models.GraphOfRow | backend/tasks/models.py:14-19 | With unique keys, the graph maps every row's key to that row's links. |
| Models.GraphOfFind | backend/tasks/models.py:14-19 | A key is a node of the graph exactly when `get` finds it, and its edges are that row's links. |
| Models.DependenciesAreDirected | backend/tasks/models.py:14-18 | Links are not symmetrical: A -> B does not give B -> A. |
| Models.FindAppend | backend/tasks/views.py:29-34 | Saving a row with a fresh key adds that key and changes no other lookup. |
| Models.GraphOfAppend | backend/tasks/views.py:29-34 | Saving a row with a fresh key adds one node, with that row's links, to the graph. |
| Scoring.Urgency | backend/task_analyzer/scoring.py:27-42 | Overdue urgency lies in 105..300, due today is 90, and a future date gives at most 40 and more than 0. |
| Scoring.UrgencyOrdering | backend/task_analyzer/scoring.py:29-42 | Every overdue task out-ranks one due today, which out-ranks every future one; a nearer future date scores higher. |
| Scoring.OverdueUrgencyCapped | backend/task_analyzer/scoring.py:33-34 | Overdue urgency grows by 5 per day and is capped at 300 from 40 days late on. |
| Scoring.EffortTerm | backend/task_analyzer/scoring.py:50-54 | +10 exactly under 2 hours, -5 exactly over 8 hours, 0 exactly in between. |
| Scoring.Reasons | backend/task_analyzer/scoring.py:57-63 | "Due very soon" appears iff the task is due today or overdue; "High importance" iff importance is at least 8; "Quick win" iff under 2 hours. Each appears at most once and no other text appears, with "Due very soon" first and "Quick win" last, as the checks append them. |
| Scoring.Explain | backend/task_analyzer/scoring.py:67-70 | The overdue shape is chosen exactly for past dates and carries the number of days late; the due-today shape is chosen exactly for today; the due-today and later shapes carry the reasons list. |
| Scoring.Render | backend/task_analyzer/scoring.py:65-70 | Overdue text starts "OVERDUE by ". With no reasons, a later task reads "Standard priority". With reasons, the text is the reasons joined by ", ", after "Due today! " for a task due today. |
| Scoring.DueVerySoonOnlyToday | backend/task_analyzer/scoring.py:57-70 | Overdue text is only the OVERDUE line. Due-today text starts with "Due very soon". A future task never shows "Due very soon". |
| Scoring.FirstIncomplete | backend/task_analyzer/scoring.py:22-24 | Finds the first open dependency in link order, and finds none exactly when all are completed. |
| Scoring.PriorityScore | backend/task_analyzer/scoring.py:21-74 | Any open dependency makes the score -1.0; with none open, the score lies within 5 below and 310 above the importance term. |
| Scoring.BlockedByFirstOpenDependency | backend/task_analyzer/scoring.py:22-24 | A task with an open dependency scores -1.0, and its text names the first open dependency in link order. |
| Scoring.UnblockedScoreIsSumOfTerms | backend/task_analyzer/scoring.py:26-74 | Without open dependencies, the score is urgency + 1.5 × importance + effort, within 5 below and 310 above the importance term. |
| Scoring.UnblockedCanScoreNegative | backend/task_analyzer/scoring.py:42-72 | A task due 22 or more days ahead, of importance at most 1 and over 8 hours, scores below zero although nothing blocks it. |
| Scoring.UnblockedCanEqualBlockedScore | backend/task_analyzer/scoring.py:21-74 | An unblocked task can score exactly -1.0, the blocked sentinel. |
| Scoring.ExplanationNonEmpty | backend/task_analyzer/scoring.py:21-70 | Every explanation is non-empty. |
| Views.Incomplete | backend/tasks/views.py:11 | The open-task query holds exactly the open rows, in key order. |
| Views.OpenDeps | backend/tasks/views.py:65 | The open dependencies are exactly the linked rows that exist and are not completed. |
| Views.ListEntry | backend/tasks/views.py:14-22 | A listed object carries the task's own fields, and shows a dependency id exactly when the task links to that id and the row exists and is open. |
| Views.ListTasks | backend/tasks/views.py:10-23 | One entry per open task, in order: entry i is the listing object of the i-th open task, with its own fields and exactly its open dependency ids. |
| Views.ListTasksShowsOpenTasks | backend/tasks/views.py:11-23 | An id is listed exactly when its row exists and is not completed. |
| Views.Annotate | backend/tasks/views.py:54-66 | One scored entry per open task, with the same id and title, in order. |
| Views.AnalyzeEntry | backend/tasks/views.py:55-66 | An analyzed object carries the task's fields and the score and explanation of `calculate_priority_score`; it scores -1.0 when some linked row is open; its dependency titles are those of the open linked rows, one each, in order. |
| Views.AnnotateEntries | backend/tasks/views.py:54-66 | Each scored entry is that task's score, explanation and open-dependency titles. |
| Views.AnalyzeTasks | backend/tasks/views.py:51-69 | The response is a permutation of the scored tasks, highest score first, with ties in the order of the scored list. |
| Views.AnalyzeTiesInTableOrder | backend/tasks/views.py:51-68 | Tasks with equal scores come out of analyze in key order, since the sort is stable over the query order. |
| Views.AnalyzeEndpoint | backend/tasks/views.py:49-70 | Only POST analyzes; any other method gets 405 "Method not allowed". |
| Views.AnalyzeListsOpenTasksOnce | backend/tasks/views.py:51-69 | The response holds each open task's id exactly once and no other id. |
| Views.Candidates | backend/tasks/views.py:75-85 | The candidates are exactly the scored open tasks whose score is above zero, and they stay in key order. |
| Views.Ranked | backend/tasks/views.py:88 | The candidates best first: a permutation of them, in non-increasing score order, with ties in the candidates' order. |
| Views.RankedTiesInTableOrder | backend/tasks/views.py:75-88 | Candidates with equal scores are ranked in key order. |
| Views.SuggestTasks | backend/tasks/views.py:73-89 | As many suggestions as there are candidates, up to three, all above zero, best first; suggestion i is the title, score and reason of the i-th ranked candidate. |
| Views.SuggestTakesBest | backend/tasks/views.py:87-89 | Every candidate is suggested, or three suggestions each score at least as much as it. |
| Views.SuggestEndpoint | backend/tasks/views.py:73-90 | Only GET suggests; any other method gets 405. |
| Writes.Unlink | backend/tasks/views.py:109 | Deleting a task drops exactly its id from a row's links, keeps them duplicate-free, and leaves them as they were if the id was absent. |
| Writes.RemoveRows | backend/tasks/views.py:109 | After the delete no row has the id or links to it, and every remaining key was there before. |
| Writes.FindAfterRemove | backend/tasks/views.py:108-109 | After the delete, `get` finds no row for the deleted id, and finds every other row with its link to it dropped. |
| Writes.RemoveKeepsOrder | backend/tasks/views.py:109 | The delete keeps the remaining rows in key order. |
| Writes.RemoveOneRow | backend/tasks/views.py:109 | With unique keys, the delete removes exactly one row if the id exists and none otherwise. |
| Writes.MarkCompleted | backend/tasks/views.py:96-98 | Completion sets the flag on the row with the id and changes nothing else. |
| Writes.CompleteTask | backend/tasks/views.py:93-102 | A method other than POST gets 405; an unknown id gets 404; otherwise the response is success and the table is the old one with that row marked completed. |
| Writes.CompleteKeepsGraph | backend/tasks/views.py:96-98 | Completion changes no key and no link. |
| Writes.CompleteIdempotent | backend/tasks/views.py:96-99 | Completing the same task twice gives the same table as once. |
| Writes.CompleteKeepsWellFormed | backend/tasks/views.py:96-98 | Completion keeps every database guarantee of the table. |
| Writes.CompleteThenNotListed | backend/tasks/views.py:96-98 | A completed task is no longer listed. |
| Writes.DeleteTask | backend/tasks/views.py:105-113 | A method other than DELETE gets 405; an unknown id gets 404; otherwise the row is gone and the table is the old one with that row and every link to it removed. |
| Writes.DeleteRemovesOneRow | backend/tasks/views.py:108-110 | A successful delete removes one row and every other key stays resolvable. |
| Writes.RemoveKeepsWellFormed | backend/tasks/views.py:109 | Deleting keeps every database guarantee: order, keys, foreign keys and no repeated link. |
| Writes.RemoveIsSubgraph | backend/tasks/views.py:109 | The graph after a delete is part of the graph before it. |
| Writes.DeleteKeepsAcyclic | backend/tasks/views.py:105-113 | Deleting cannot create a dependency cycle. |
| Writes.Require | backend/tasks/views.py:29-46 | A missing key answers 400 with the quoted key name, a failed conversion answers 400 with its text, and a present value is read as given. |
| Writes.ReadColumns | backend/tasks/views.py:29-34 | The row is created exactly when all four columns are present and convert; a missing title is reported before anything else. |
| Writes.AddLink | backend/tasks/views.py:39 | Adding a link adds the id once and keeps the links duplicate-free. |
| Writes.LinkAll | backend/tasks/views.py:36-39 | The loop fails exactly when some id has no row. Otherwise the links are the listed ids. Every link names an existing row, and no link repeats. |
| Writes.LinkAllStopsAtFirstMissing | backend/tasks/views.py:37-39 | When the loop fails, it stopped at the first unknown id, and exactly the ids before it were linked. |
| Writes.CreateTask | backend/tasks/views.py:25-46 | An unreadable body or a missing or bad column answers 400 with the table unchanged; otherwise the row is inserted first. |
| Writes.InsertAndLink | backend/tasks/views.py:29-46 | Every request that gets this far uses up a key. A created task gets that key, the rows before it stay as they were, and the new row carries the body's columns and links exactly the listed ids. A malformed dependency list answers 400 and keeps the new row unlinked; an unknown id answers 400 and keeps the new row with the links made so far. |
| Writes.UnknownDependencyKeepsEarlierLinks | backend/tasks/views.py:36-46 | A create naming an unknown dependency answers 400 but keeps the new row, linked to exactly the ids listed before the first unknown one. |
| Writes.NextIdIsFresh | backend/tasks/views.py:29-34 | The next auto-increment key names no row and no link. |
| Writes.InsertedGraph | backend/tasks/views.py:29-39 | The new row enters the graph as a node that nothing depends on. |
| Writes.InsertKeepsAcyclic | backend/tasks/views.py:29-43 | A new row that does not link to itself cannot close a cycle in an acyclic table. |
| Writes.InsertCycleIffSelfLink | backend/tasks/views.py:40-42 | Over an acyclic table, the cycle check on the new row fires exactly when the row links to itself. |
| Writes.InsertKeepsWellFormed | backend/tasks/views.py:29-39 | A new row with the next key and valid, non-repeated links keeps the table well formed. |
| Writes.RemoveFresh | backend/tasks/views.py:41 | Deleting the row just inserted gives back the rows from before the insert. |
| Writes.CreateOutcome | backend/tasks/views.py:25-46 | Over a well-formed acyclic table, a readable body fails on an unknown id iff one is listed. It is rejected as circular iff all ids resolve and it lists its own new key. It is created iff all ids resolve and it does not list its own key. |
| Writes.InsertAndLinkKeepsWellFormed | backend/tasks/views.py:29-46 | Every outcome after the insert keeps the database guarantees. |
| Writes.LinkedKeepsWellFormed | backend/tasks/views.py:36-39 | The new row with the links made, complete or not, keeps the table well formed. |
| Writes.CreateKeepsWellFormed | backend/tasks/views.py:25-46 | Every create, whatever its response, keeps the database guarantees. |
| Writes.CircularCreateRestoresRows | backend/tasks/views.py:40-42 | A circular rejection leaves the rows as before; only the key counter has moved. |
| Writes.InsertAndLinkKeepsAcyclic | backend/tasks/views.py:29-43 | Unless it fails on an unknown id, a create keeps an acyclic table acyclic. |
| Writes.CreateKeepsAcyclic | backend/tasks/views.py:25-46 | Unless a create fails on an unknown id, it keeps an acyclic table acyclic. |
| Writes.PartialCreateCanPersistCycle | backend/tasks/views.py:36-46 | A failed create can leave a self-linked row in an acyclic table (see Findings). |
| Writes.CreateTaskAtomic | backend/tasks/views.py:25-46 | Create as one transaction: same responses, and the table is unchanged unless the task was created. |
| Writes.CreateAtomicKeepsInvariant | backend/tasks/views.py:25-46 | With the transaction, no request breaks acyclicity or the database guarantees. |
| Writes.CreateSkipsValidation | backend/tasks/views.py:29-34 | Create runs no field validator: an empty title, 0 hours and importance 0 are stored. |
| Writes.TaskListEndpoint | backend/tasks/views.py:9-46 | GET lists, POST creates, and any other method gets no response. |
| Frontend.StrategySort | frontend/scripts.js:76-86 | The strategy sort is a permutation, ordered by due date, by importance (descending) or by hours, and stable. Any other strategy keeps the backend order. |
| Frontend.StrategyKeepsOrderOnTies | frontend/scripts.js:78-86 | Among tasks that tie on the strategy's key, the incoming order is kept. |
| Frontend.StrategyTiesKeepScoreOrder | frontend/scripts.js:73-86 | After any re-sort, tasks that tie on the strategy's key are still highest score first. |
| Frontend.PriorityClass | frontend/scripts.js:114-117 | The card is blocked iff score < 0, high iff > 80, medium iff in (50, 80], and low iff in [0, 50]. |
| Frontend.ClassBoundaries | frontend/scripts.js:115-116 | The thresholds are strict: exactly 80 is medium and exactly 50 is low. |
| Frontend.ScoreDisplay | frontend/scripts.js:141 | The label is "Blocked" exactly for a negative score, and the score otherwise. |
| Frontend.ShownExplanation | frontend/scripts.js:163 | The explanation is shown as given, or "Standard priority" when it is empty. |
| Frontend.AnalyzedExplanationShown | frontend/scripts.js:163 | For analyzed tasks the fallback never shows. |
| Frontend.LongUnimportantTaskLooksBlocked | frontend/scripts.js:114-141 | A long, unimportant, far-off task with nothing blocking it gets the blocked class and label, and suggest never offers it. |
| Frontend.RetainSelection | frontend/scripts.js:230-240 | An option is selected exactly when its id text was selected before; the second `includes` test never decides anything. |
| Frontend.SelectionKeepsListedIds | frontend/scripts.js:230-240 | Rebuilding keeps exactly the previously selected tasks that are still listed. |
| JsonImport.Check | frontend/scripts.js:342-358 | An entry passes iff it has all fields, importance in 1..10 and hours above 0. The error reported is the first failing check, in order. |
| JsonImport.ToPayload | frontend/scripts.js:360-366 | The payload carries the entry's fields; dependencies are forwarded as given, or `[]` if not an array. |
| JsonImport.RefusalText | frontend/scripts.js:380 | A refusal shows the server's error, or "Failed to create" when there is none; it is never empty. |
| JsonImport.ImportOf | frontend/scripts.js:339-386 | Every entry counts once, as a success or as a failure with one error. Requests go out for exactly the passing entries, in order. |
| JsonImport.RejectedEntryNotSent | frontend/scripts.js:342-358 | A rejected entry sends nothing and adds exactly one labelled error. |
| JsonImport.ErrorSummary | frontend/scripts.js:395-397 | Up to three errors are joined by "; "; past three, the first three are joined and the text ends with the total. |
| JsonImport.SummaryStartsWithFirstError | frontend/scripts.js:395-397 | The summary starts with the first error. |
| JsonImport.Outcome | frontend/scripts.js:388-399 | One success note if anything was imported, then one error note if anything failed. |
| JsonImport.Label | frontend/scripts.js:344-384 | Every error label reads "Task N: ". |
| JsonImport.LabelInjective | frontend/scripts.js:344-384 | Different entries get different labels, so each error names its own entry. |
| JsonImport.Step | frontend/scripts.js:340-385 | One entry counts once, as a success or a failure. A failed check adds that check's message, a refusal adds the server's error or "Failed to create", and a network failure adds "Network error", each after the entry's label. A request goes out exactly when the checks pass, and only such a request can succeed. |
| JsonImport.Turn | frontend/scripts.js:340-385 | The loop body bumps exactly one of the two counters, adds a labelled error exactly when the failure count grows (the server's text for a refusal, "Network error" for a failed fetch), and sends the payload exactly when the checks pass. |
| JsonImport.ImportLoop | frontend/scripts.js:339-386 | The loop computes the reference report for all entries. |
| JsonImport.EarlyExit | frontend/scripts.js:310-332 | The import stops before any request exactly when the input is not a non-empty array, and then with a non-empty message. |
| JsonImport.HandleJsonImport | frontend/scripts.js:309-400 | A blank, unparsable, non-array or empty input stops with its one message. Otherwise every entry is counted once, exactly the passing ones are sent, and the notes follow. |
| JsonImport.ImportSendsHoursBelowModelMinimum | frontend/scripts.js:354-363 | The client lets through hours below the 0.1 the model declares. |

## Left out

- Scoring.UnblockedScoreIsSumOfTerms: the score is the exact real sum. Python's `round(total, 2)` and floating point are not modelled.
- Frontend.ScoreDisplay: the label carries the score itself. The `toFixed(1)` text formatting is not modelled.
- Views.Candidates: the filter `score > 0` sees the exact score, but the program tests the score after `round(total, 2)`. A task due in 158 days, importance 3, 9 hours scores about 0.00314; Python rounds it to 0.0, so the program drops it while the model keeps it.
- Views.AnalyzeTasks: the order is by exact score, but the program sorts rounded scores. Scores 7.5799 and 7.58 tie after rounding and keep table order there, while the model puts 7.58 first. Views.Ranked and Views.SuggestTasks share this difference.
- Frontend.PriorityClass: the class is taken from the exact score. A task due in 160 days, importance 3, 9 hours scores about -0.0031; the program sends -0.0, `-0 < 0` is false, and the card is "low" with the label "0.0", while the model gives the blocked class.
- Scoring.BlockedByFirstOpenDependency: "first" is in link order, which assumes `task.dependencies.all()` returns links in the order they were added. No `order_by` or `Meta.ordering` fixes that order, so the title named after "Blocked by incomplete task:" may differ on a real database. Models.DepRows and Scoring.FirstIncomplete rest on the same assumption, and so does the order of the dependency titles in Views.AnalyzeEntry.
- CycleDetection.DetectCycle: Python's recursion limit is not modelled. `detect_cycle` recurses once per link along a chain, so a chain of dependencies about a thousand tasks deep raises RecursionError. The `except Exception` of the create handler then answers 400 and keeps the new row and its links, and the delete after a detected cycle never runs. The model always finishes the search, so Writes.CreateOutcome and Writes.CreateKeepsAcyclic describe such a request as created or rejected as circular.
- Views.Incomplete: `Task.objects.filter(is_completed=False)` is taken to return rows in primary-key order. Nothing in the code orders it, so the listing order, and the tie order of the analysis and suggestions, rest on that assumption.
- JsonImport.HandleJsonImport: an array element that is `null` is not modelled. Reading `task.title` on it throws a TypeError outside the `try`. The handler then stops with no notification, after the earlier entries were already POSTed. For example `[{valid entry}, null]` creates the first task and reports nothing.
- Dates are day numbers, and `today` is a parameter. `date.today()`, `parse_date` and `new Date(...)` are not modelled, and neither is an unparsable date string.
- JSON parsing and the conversions `float(...)` and `int(...)` are not modelled. A request body arrives already split into per-key fields, each missing, malformed (carrying the exception's text) or given. Dependency ids are integers.
- In the import, `null` fields, strings in number fields, and non-integer importance are left out: an entry's fields are either undefined or of their JSON type. `parseFloat`/`parseInt` on values that are already numbers are identities.
- Several frontend functions are page plumbing and are left out: the DOM, notifications as UI, `fetchTasks`, `markComplete`, `deleteTask`, `handleAddTask`, `switchInputMode`, `updateSelectedDependencies` and `removeDependency`. Their effects on data are the server handlers, which are modelled.
- The network is a parameter: the import's per-entry answer `respond`. Request timing and concurrency are not modelled.
- URL routing (`urls.py`) is not part of this model. The handlers take the method and id directly.
- In `Writes.CreateTaskAtomic`, the transactional correction also restores the key counter. A real database sequence would still advance; this does not affect any property proved.
- The exact text of Django's `DoesNotExist` is a constant. The texts of other exceptions are carried as given.

## Findings

| source | as written | input that shows it | evidently intended | confidence | as-written member | corrected member |
|---|---|---|---|---|---|---|
| backend/tasks/views.py:36-46 | The row is saved before the dependency loop. A lookup that raises after some links were added answers 400 but keeps the row and its links, and `detect_cycle` never runs. | Empty table, next key 1. POST `{"title": "A", "due_date": ..., "estimated_hours": 1, "importance": 5, "dependencies": [1, 2]}`: task 1 links to itself, the lookup of 2 raises, and the 400 leaves a self-dependent task 1 in the table. | A rejected create leaves the table unchanged, so no request can leave a cycle. | not executed | Writes.PartialCreateCanPersistCycle | Writes.CreateTaskAtomic |

=== FILE: cycle.dfy ===
/**
 * `detect_cycle` (backend/task_analyzer/scoring.py): a depth-first search that
 * threads a `path` set (the nodes on the current branch) and a `visited` set
 * (every node expanded so far) through the recursion. The Python loop over
 * `task.dependencies.all()` is `VisitList`; both sets are returned so that the
 * mutation the Python code performs in place is visible to the caller.
 */
module CycleDetection {
  import opened DependencyGraph

  /** The outcome of a search step: whether a cycle was hit, and the two sets afterwards. */
  datatype Search = Search(found: bool, path: set<int>, visited: set<int>)

  lemma SubsetCard(a: set<int>, b: set<int>)
    requires a <= b
    ensures |a| <= |b|
  {
    assert b == a + (b - a);
    assert a !! (b - a);
  }

  /** The search measure: keys of `g` not yet expanded. Expanding a fresh key shrinks it; growing `visited` never enlarges it. */
  lemma ExpandShrinks(g: Graph, n: int, visited: set<int>)
    requires n in g && n !in visited
    ensures |g.Keys - (visited + {n})| < |g.Keys - visited|
  {
    assert g.Keys - (visited + {n}) == (g.Keys - visited) - {n};
  }

  lemma GrowNoLarger(g: Graph, visited: set<int>, visited': set<int>)
    requires visited <= visited'
    ensures |g.Keys - visited'| <= |g.Keys - visited|
  {
    SubsetCard(g.Keys - visited', g.Keys - visited);
  }

  /** One call of `detect_cycle` on node `n`. Terminates because every expansion adds a fresh key of `g` to `visited`. */
  function Visit(g: Graph, n: int, path: set<int>, visited: set<int>): (r: Search)
    ensures visited <= r.visited
    ensures n in path ==> r.found
    ensures n !in path && n in visited ==> r == Search(false, path, visited)
    ensures !r.found ==> r.path == path && n in r.visited && n !in path
    decreases |g.Keys - visited|, 0
  {
    if n in path then Search(true, path, visited)
    else if n in visited then Search(false, path, visited)
    else if n !in g then
      // no dependencies: add to both sets, loop over nothing, remove from path
      Search(false, path, visited + {n})
    else
      ExpandShrinks(g, n, visited);
      var r := VisitList(g, g[n], path + {n}, visited + {n});
      if r.found then r else Search(false, r.path - {n}, r.visited)
  }

  /** The loop over the dependencies of one node, stopping at the first that reports a cycle. */
  function VisitList(g: Graph, children: seq<int>, path: set<int>, visited: set<int>): (r: Search)
    ensures visited <= r.visited
    ensures !r.found ==> r.path == path
    ensures !r.found ==> forall i :: 0 <= i < |children| ==> children[i] in r.visited
    decreases |g.Keys - visited|, 1, |children|
  {
    if children == [] then Search(false, path, visited)
    else
      var r := Visit(g, children[0], path, visited);
      if r.found then r
      else
        GrowNoLarger(g, visited, r.visited);
        VisitList(g, children[1..], r.path, r.visited)
  }

  /** `detect_cycle(task)` with fresh `path` and `visited`. */
  function DetectCycle(g: Graph, start: int): (r: bool)
    ensures start !in g ==> !r
    ensures start in g && g[start] == [] ==> !r
    ensures start in g && start in g[start] ==> r
  {
    FreshSearchBasics(g, start);
    Visit(g, start, {}, {}).found
  }

  /** A search from scratch: nothing to expand finds nothing, and a self-link is found at once. */
  lemma FreshSearchBasics(g: Graph, start: int)
    ensures start !in g ==> !Visit(g, start, {}, {}).found
    ensures start in g && g[start] == [] ==> !Visit(g, start, {}, {}).found
    ensures start in g && start in g[start] ==> Visit(g, start, {}, {}).found
  {
    assert {} + {start} == {start};
    if start in g && start in g[start] {
      VisitListMeetsPath(g, g[start], {start}, {start}, start);
    }
  }

  /** The loop reports a cycle when one of its children is already on the current branch. */
  lemma {:induction false} VisitListMeetsPath(g: Graph, children: seq<int>, path: set<int>, visited: set<int>, x: int)
    requires x in children && x in path
    ensures VisitList(g, children, path, visited).found
    decreases |children|
  {
    var r := Visit(g, children[0], path, visited);
    if !r.found {
      assert children[0] != x;
      assert x in children[1..];
      VisitListMeetsPath(g, children[1..], r.path, r.visited, x);
    }
  }

  /** Every node of `path` is on the current branch, which is a walk ending just before `n`. */
  lemma {:induction false} VisitSound(g: Graph, n: int, path: set<int>, visited: set<int>, stack: seq<int>)
    returns (w: seq<int>)
    requires forall x :: x in path <==> x in stack
    requires IsWalk(g, stack + [n])
    ensures Visit(g, n, path, visited).found ==>
              IsWalk(g, w) && w[0] == (stack + [n])[0] && Revisits(w)
    decreases |g.Keys - visited|, 0
  {
    w := stack + [n];
    if n in path {
      assert w[..|w| - 1] == stack;
    } else if n !in visited && n in g {
      var stack' := stack + [n];
      ExpandShrinks(g, n, visited);
      w := VisitListSound(g, g[n], path + {n}, visited + {n}, stack');
    }
  }

  lemma {:induction false} VisitListSound(g: Graph, children: seq<int>, path: set<int>, visited: set<int>,
                                          stack: seq<int>)
    returns (w: seq<int>)
    requires forall x :: x in path <==> x in stack
    requires IsWalk(g, stack)
    requires forall i :: 0 <= i < |children| ==> Edge(g, stack[|stack| - 1], children[i])
    ensures VisitList(g, children, path, visited).found ==>
              IsWalk(g, w) && w[0] == stack[0] && Revisits(w)
    decreases |g.Keys - visited|, 1, |children|
  {
    w := stack;
    if children != [] {
      WalkSnoc(g, stack, children[0]);
      var r := Visit(g, children[0], path, visited);
      if r.found {
        w := VisitSound(g, children[0], path, visited, stack);
      } else {
        GrowNoLarger(g, visited, r.visited);
        w := VisitListSound(g, children[1..], r.path, r.visited, stack);
      }
    }
  }

  /** Nodes that were expanded and have left the path reach no cycle. */
  ghost predicate Settled(g: Graph, path: set<int>, visited: set<int>) {
    forall b :: b in visited && b !in path ==> !CycleReachable(g, b)
  }

  lemma {:induction false} VisitComplete(g: Graph, n: int, path: set<int>, visited: set<int>)
    requires Settled(g, path, visited)
    ensures !Visit(g, n, path, visited).found ==>
              Settled(g, path, Visit(g, n, path, visited).visited) && !CycleReachable(g, n)
    decreases |g.Keys - visited|, 0
  {
    if n !in path && n !in visited {
      if n !in g {
        NoCycleThroughSuccessors(g, n);
      } else {
        ExpandShrinks(g, n, visited);
        VisitListComplete(g, g[n], path + {n}, visited + {n});
        if !VisitList(g, g[n], path + {n}, visited + {n}).found {
          NoCycleThroughSuccessors(g, n);
        }
      }
    }
  }

  lemma {:induction false} VisitListComplete(g: Graph, children: seq<int>, path: set<int>, visited: set<int>)
    requires Settled(g, path, visited)
    ensures !VisitList(g, children, path, visited).found ==>
              Settled(g, path, VisitList(g, children, path, visited).visited)
              && forall c :: c in children ==> !CycleReachable(g, c)
    decreases |g.Keys - visited|, 1, |children|
  {
    if children != [] {
      VisitComplete(g, children[0], path, visited);
      var r := Visit(g, children[0], path, visited);
      if !r.found {
        GrowNoLarger(g, visited, r.visited);
        VisitListComplete(g, children[1..], r.path, r.visited);
        assert forall c :: c in children ==> c == children[0] || c in children[1..];
      }
    }
  }

  /** `detect_cycle(start)` is True exactly when a cycle is reachable from `start`. */
  lemma DetectCycleCorrect(g: Graph, start: int)
    ensures DetectCycle(g, start) <==> CycleReachable(g, start)
  {
    var w := VisitSound(g, start, {}, {}, []);
    assert [] + [start] == [start];
    VisitComplete(g, start, {}, {});
  }

  /** A task that depends on itself is reported as a cycle. */
  lemma SelfDependencyDetected(g: Graph, n: int)
    requires Edge(g, n, n)
    ensures DetectCycle(g, n)
  {
    SelfEdgeIsCycle(g, n);
    DetectCycleCorrect(g, n);
  }
}

=== FILE: frontend.dfy ===
/**
 * The decisions frontend/scripts.js takes on the data it receives: the
 * re-sort of the analyze response by the chosen strategy, the card class and
 * score label of each analyzed task, the explanation fallback, and which
 * dependency options stay selected when the dropdown is rebuilt.
 */
module Frontend {
  import opened Strings
  import opened Sorting
  import opened Seqs
  import opened Models
  import opened Scoring
  import opened Views

  // ------------------------------------------------------- strategy sort

  function DueKey(a: Analyzed): real {
    a.dueDate as real
  }

  /** `b.importance - a.importance` orders ascending on the negated importance. */
  function NegImportance(a: Analyzed): real {
    -(a.importance as real)
  }

  function HoursKey(a: Analyzed): real {
    a.hours
  }

  const Urgent := "urgent"
  const Important := "important"
  const Quick := "quick"

  /**
   * The re-sort `analyzeTasks` applies for the selected strategy. The
   * comparators subtract keys, and `Array.prototype.sort` is stable, so each
   * is the stable sort on that key; any other strategy keeps the score order.
   */
  function StrategySort(tasks: seq<Analyzed>, strategy: string): (r: seq<Analyzed>)
    ensures multiset(r) == multiset(tasks)
    ensures strategy == Urgent ==>
              SortedBy(r, DueKey) && forall k :: WithKey(r, DueKey, k) == WithKey(tasks, DueKey, k)
    ensures strategy == Important ==>
              (forall i, j :: 0 <= i < j < |r| ==> r[i].importance >= r[j].importance)
              && forall k :: WithKey(r, NegImportance, k) == WithKey(tasks, NegImportance, k)
    ensures strategy == Quick ==>
              SortedBy(r, HoursKey) && forall k :: WithKey(r, HoursKey, k) == WithKey(tasks, HoursKey, k)
    ensures strategy != Urgent && strategy != Important && strategy != Quick ==> r == tasks
  {
    if strategy == Urgent then
      SortByCorrect(tasks, DueKey);
      SortBy(tasks, DueKey)
    else if strategy == Important then
      SortByCorrect(tasks, NegImportance);
      var r := SortBy(tasks, NegImportance);
      assert forall i, j :: 0 <= i < j < |r| ==> NegImportance(r[i]) <= NegImportance(r[j]);
      r
    else if strategy == Quick then
      SortByCorrect(tasks, HoursKey);
      SortBy(tasks, HoursKey)
    else tasks
  }

  predicate ScoreAtLeast(x: Analyzed, y: Analyzed) {
    x.score >= y.score
  }

  /** Ties on the strategy's key: due date, importance or hours; every pair ties for the default. */
  predicate TiesOn(strategy: string, x: Analyzed, y: Analyzed) {
    && (strategy == Urgent ==> x.dueDate == y.dueDate)
    && (strategy == Important ==> x.importance == y.importance)
    && (strategy == Quick ==> x.hours == y.hours)
  }

  /** Any strategy keeps the incoming order among tasks that tie on its key. */
  lemma StrategyKeepsOrderOnTies(a: seq<Analyzed>, strategy: string)
    requires Chain(a, ScoreAtLeast)
    ensures var r := StrategySort(a, strategy);
            forall i, j :: 0 <= i < j < |r| && TiesOn(strategy, r[i], r[j]) ==> r[i].score >= r[j].score
  {
    var r := StrategySort(a, strategy);
    if strategy == Urgent {
      StableKeepsOrderOnTies(a, r, DueKey, ScoreAtLeast);
    } else if strategy == Important {
      StableKeepsOrderOnTies(a, r, NegImportance, ScoreAtLeast);
    } else if strategy == Quick {
      StableKeepsOrderOnTies(a, r, HoursKey, ScoreAtLeast);
    }
  }

  /**
   * Re-sorting the analyze response by any strategy keeps the backend's
   * highest-score-first order among tasks that tie on the strategy's key.
   */
  lemma StrategyTiesKeepScoreOrder(s: Store, today: int, strategy: string)
    ensures var r := StrategySort(AnalyzeTasks(s, today), strategy);
            forall i, j :: 0 <= i < j < |r| && TiesOn(strategy, r[i], r[j]) ==> r[i].score >= r[j].score
  {
    var a := AnalyzeTasks(s, today);
    assert Chain(a, ScoreAtLeast);
    StrategyKeepsOrderOnTies(a, strategy);
  }

  // ---------------------------------------------------------- card class

  datatype CardClass = Low | Medium | High | Blocked

  /** `renderTasks`: start at low, then each later test that holds overrides the earlier ones. */
  function PriorityClass(score: real): (c: CardClass)
    ensures c == Blocked <==> score < 0.0
    ensures c == High <==> score > 80.0
    ensures c == Medium <==> 50.0 < score <= 80.0
    ensures c == Low <==> 0.0 <= score <= 50.0
  {
    var c := Low;
    var c := if score > 50.0 then Medium else c;
    var c := if score > 80.0 then High else c;
    if score < 0.0 then Blocked else c
  }

  /** The thresholds are strict: exactly 80 is medium and exactly 50 is low. */
  lemma ClassBoundaries()
    ensures PriorityClass(80.0) == Medium && PriorityClass(50.0) == Low
    ensures PriorityClass(80.5) == High && PriorityClass(-1.0) == Blocked
  {
  }

  /** The score label: the word "Blocked", or the score (whose `toFixed(1)` formatting is not modelled). */
  datatype ScoreLabel = BlockedLabel | Shown(score: real)

  function ScoreDisplay(score: real): (l: ScoreLabel)
    ensures l == BlockedLabel <==> score < 0.0
    ensures l.Shown? ==> l.score == score && score >= 0.0
  {
    if score < 0.0 then BlockedLabel else Shown(score)
  }

  /** `task.explanation || 'Standard priority'`. */
  function ShownExplanation(e: string): (r: string)
    ensures e != "" ==> r == e
    ensures e == "" ==> r == StandardPriority
  {
    if e == "" then StandardPriority else e
  }

  /** The fallback never shows: every analyzed entry carries its own explanation. */
  lemma AnalyzedExplanationShown(rows: seq<Task>, t: Task, today: int)
    ensures var a := AnalyzeEntry(rows, t, today);
            ShownExplanation(a.explanation) == a.explanation
  {
    ExplanationNonEmpty(t, DepRows(rows, t), today);
  }

  /**
   * An unblocked task due three weeks or more ahead, of importance 1 and more
   * than 8 hours long is shown exactly like a blocked one, and suggest never
   * offers it.
   */
  lemma LongUnimportantTaskLooksBlocked(s: Store, t: Task, today: int)
    requires forall j :: 0 <= j < |DepRows(s.rows, t)| ==> DepRows(s.rows, t)[j].completed
    requires t.dueDate - today >= 22 && t.importance <= 1 && t.hours > 8.0
    ensures var a := AnalyzeEntry(s.rows, t, today);
            PriorityClass(a.score) == Blocked && ScoreDisplay(a.score) == BlockedLabel
            && a !in Candidates(s, today)
  {
    UnblockedCanScoreNegative(t, DepRows(s.rows, t), today);
  }

  // ---------------------------------------------------- dropdown selection

  /**
   * `updateDependencyDropdown`: one option per listed task, selected when its
   * id string was selected before and is among the listed ids.
   */
  function RetainSelection(tasks: seq<Listed>, selected: seq<string>): (r: seq<bool>)
    ensures |r| == |tasks|
    ensures forall i :: 0 <= i < |tasks| ==> (r[i] <==> IntToString(tasks[i].id) in selected)
  {
    var available := seq(|tasks|, j requires 0 <= j < |tasks| => IntToString(tasks[j].id));
    assert forall i :: 0 <= i < |tasks| ==> available[i] == IntToString(tasks[i].id);
    seq(|tasks|, i requires 0 <= i < |tasks| =>
      IntToString(tasks[i].id) in selected && IntToString(tasks[i].id) in available)
  }

  /**
   * Rebuilding after a refresh keeps exactly the previously selected tasks
   * that are still listed: an id string names one id only.
   */
  lemma SelectionKeepsListedIds(tasks: seq<Listed>, before: seq<int>)
    ensures var selected := seq(|before|, j requires 0 <= j < |before| => IntToString(before[j]));
            var r := RetainSelection(tasks, selected);
            forall i :: 0 <= i < |tasks| ==> (r[i] <==> tasks[i].id in before)
  {
    var selected := seq(|before|, j requires 0 <= j < |before| => IntToString(before[j]));
    forall i | 0 <= i < |tasks|
      ensures IntToString(tasks[i].id) in selected <==> tasks[i].id in before
    {
      if IntToString(tasks[i].id) in selected {
        var j :| 0 <= j < |before| && selected[j] == IntToString(tasks[i].id);
        IntToStringInjective(before[j], tasks[i].id);
      }
      if tasks[i].id in before {
        var j :| 0 <= j < |before| && before[j] == tasks[i].id;
        assert selected[j] == IntToString(tasks[i].id);
      }
    }
  }
}

=== FILE: graph.dfy ===
/**
 * The dependency relation as a graph: each task id maps to the ids it
 * depends on. A cycle is reachable from `s` when some walk that starts at
 * `s` comes back to a node it has already passed.
 */
module DependencyGraph {

  type Graph = map<int, seq<int>>

  /** `a` depends directly on `b`. */
  predicate Edge(g: Graph, a: int, b: int) {
    a in g && b in g[a]
  }

  /** A non-empty sequence of nodes, each depending directly on the next. */
  ghost predicate IsWalk(g: Graph, w: seq<int>) {
    |w| >= 1 && forall i :: 0 <= i < |w| - 1 ==> Edge(g, w[i], w[i + 1])
  }

  /** The walk ends at a node it has visited before. */
  ghost predicate Revisits(w: seq<int>) {
    |w| >= 2 && w[|w| - 1] in w[..|w| - 1]
  }

  /** Some cycle A -> B -> ... -> A can be reached from `s`. */
  ghost predicate CycleReachable(g: Graph, s: int) {
    exists w :: IsWalk(g, w) && w[0] == s && Revisits(w)
  }

  ghost predicate Acyclic(g: Graph) {
    forall s :: !CycleReachable(g, s)
  }

  lemma WalkSnoc(g: Graph, w: seq<int>, n: int)
    requires IsWalk(g, w)
    requires Edge(g, w[|w| - 1], n)
    ensures IsWalk(g, w + [n])
  {
  }

  /** A cycle reachable from `n` is reachable from one of its direct dependencies. */
  lemma CycleThroughSuccessor(g: Graph, n: int)
    ensures CycleReachable(g, n) ==> exists c :: Edge(g, n, c) && CycleReachable(g, c)
  {
    if CycleReachable(g, n) {
      var w :| IsWalk(g, w) && w[0] == n && Revisits(w);
      var c := w[1];
      assert Edge(g, n, c);
      var rest := w[1..];
      assert IsWalk(g, rest);
      if rest[|rest| - 1] in rest[..|rest| - 1] {
        assert Revisits(rest);
      } else {
        // the only earlier visit of the last node is the start `n`
        assert w[..|w| - 1] == [n] + rest[..|rest| - 1];
        assert rest[|rest| - 1] == n;
        var back := rest + [c];
        WalkSnoc(g, rest, c);
        assert back[..|back| - 1] == rest;
        assert Revisits(back);
      }
    }
  }

  /** A node whose direct dependencies reach no cycle reaches none either. */
  lemma NoCycleThroughSuccessors(g: Graph, n: int)
    requires forall c :: Edge(g, n, c) ==> !CycleReachable(g, c)
    ensures !CycleReachable(g, n)
  {
    CycleThroughSuccessor(g, n);
  }

  /** A dependency of a node on itself is a cycle. */
  lemma SelfEdgeIsCycle(g: Graph, n: int)
    requires Edge(g, n, n)
    ensures CycleReachable(g, n)
  {
    var w := [n, n];
    assert w[..1] == [n];
    assert IsWalk(g, w) && Revisits(w);
  }

  /** Every edge of `h` is an edge of `g`. */
  ghost predicate Subgraph(h: Graph, g: Graph) {
    forall a, b :: Edge(h, a, b) ==> Edge(g, a, b)
  }

  lemma SubgraphCycle(h: Graph, g: Graph, s: int)
    requires Subgraph(h, g)
    ensures CycleReachable(h, s) ==> CycleReachable(g, s)
  {
    if CycleReachable(h, s) {
      var w :| IsWalk(h, w) && w[0] == s && Revisits(w);
      assert IsWalk(g, w);
    }
  }

  /** Dropping nodes or edges cannot create a cycle. */
  lemma SubgraphKeepsAcyclic(h: Graph, g: Graph)
    requires Subgraph(h, g) && Acyclic(g)
    ensures Acyclic(h)
  {
    forall s
      ensures !CycleReachable(h, s)
    {
      SubgraphCycle(h, g, s);
    }
  }

  /** A cycle in `g` extended by a node `n` that nothing depends on is already a cycle of `g`. */
  lemma AddSourceCycle(g: Graph, n: int, succ: seq<int>, s: int)
    requires n !in g
    requires forall a :: a in g ==> n !in g[a]
    requires n !in succ
    ensures CycleReachable(g[n := succ], s) ==> exists s' :: CycleReachable(g, s')
  {
    var g' := g[n := succ];
    if CycleReachable(g', s) {
      var w :| IsWalk(g', w) && w[0] == s && Revisits(w);
      assert forall i :: 1 <= i < |w| ==> w[i] != n by {
        forall i | 1 <= i < |w|
          ensures w[i] != n
        {
          assert Edge(g', w[i - 1], w[i]);
        }
      }
      if w[0] != n {
        assert IsWalk(g, w);
        assert CycleReachable(g, w[0]);
      } else {
        var w' := w[1..];
        assert IsWalk(g, w') by {
          forall i | 0 <= i < |w'| - 1
            ensures Edge(g, w'[i], w'[i + 1])
          {
            assert Edge(g', w[i + 1], w[i + 2]);
          }
        }
        var j :| 0 <= j < |w| - 1 && w[j] == w[|w| - 1];
        assert j >= 1;
        assert w'[j - 1] == w'[|w'| - 1];
        assert w'[..|w'| - 1][j - 1] == w'[j - 1];
        assert Revisits(w');
        assert CycleReachable(g, w'[0]);
      }
    }
  }

  lemma AddSourceKeepsAcyclic(g: Graph, n: int, succ: seq<int>)
    requires n !in g
    requires forall a :: a in g ==> n !in g[a]
    requires n !in succ
    requires Acyclic(g)
    ensures Acyclic(g[n := succ])
  {
    var g' := g[n := succ];
    forall s
      ensures !CycleReachable(g', s)
    {
      AddSourceCycle(g, n, succ, s);
    }
  }
}

=== FILE: jsonimport.dfy ===
/**
 * `handleJsonImport` of frontend/scripts.js: the pasted array is walked once,
 * in order; each entry is checked on the client and, if it passes, POSTed on
 * its own. The server's answer to each request is a parameter `respond`
 * (indexed by the entry's position), since the network is outside the model.
 */
module JsonImport {
  import opened Wrappers
  import opened Strings
  import opened Seqs
  import opened Models

  /** One element of the pasted array, fields typed as JSON gives them; `None` is `undefined`. */
  datatype Entry = Entry(
    title: Option<string>,
    dueDate: Option<string>,
    hours: Option<real>,
    importance: Option<int>,
    dependencies: Option<seq<int>>)   // None: absent, or present but not an array

  /** The trimmed text of the box: empty, not JSON, JSON but not an array, or an array. */
  datatype ImportInput = Blank | Unparsable | NotAnArray | Entries(entries: seq<Entry>)

  /** The body POSTed to the task list for one entry. */
  datatype Payload = Payload(title: string, dueDate: string, hours: real, importance: int, dependencies: seq<int>)

  /** What came back for one request: 2xx, another status with its `error` text if any, or a thrown fetch. */
  datatype PostOutcome = Accepted | Refused(error: Option<string>) | NetworkError

  datatype Level = SuccessNote | ErrorNote

  /** A call to `showNotification`. */
  datatype Notification = Notification(message: string, level: Level)

  /** JavaScript truthiness of a string field: present and not empty. */
  predicate Truthy(f: Option<string>) {
    f.Some? && f.value != ""
  }

  const MissingFields := "Missing required fields (title, due_date, estimated_hours, importance)"
  const ImportanceRange := "Importance must be between 1 and 10"
  const HoursPositive := "Estimated hours must be greater than 0"
  const FailedToCreate := "Failed to create"
  const NetworkFailure := "Network error"

  predicate HasAllFields(e: Entry) {
    Truthy(e.title) && Truthy(e.dueDate) && e.hours.Some? && e.importance.Some?
  }

  /** The client-side checks all pass: every field there, importance in 1..10, hours above 0. */
  predicate Passes(e: Entry) {
    && HasAllFields(e)
    && MinImportance <= e.importance.value <= MaxImportance
    && e.hours.value > 0.0
  }

  /** The first client-side check the entry fails, in the order the three checks run. */
  function Check(e: Entry): (r: Option<string>)
    ensures r.None? <==> Passes(e)
    ensures r == Some(MissingFields) <==> !HasAllFields(e)
    ensures r == Some(ImportanceRange) <==>
              HasAllFields(e) && !(MinImportance <= e.importance.value <= MaxImportance)
    ensures r == Some(HoursPositive) <==>
              HasAllFields(e) && MinImportance <= e.importance.value <= MaxImportance && e.hours.value <= 0.0
  {
    if !(Truthy(e.title) && Truthy(e.dueDate) && e.hours.Some? && e.importance.Some?) then Some(MissingFields)
    else if e.importance.value < 1 || e.importance.value > 10 then Some(ImportanceRange)
    else if e.hours.value <= 0.0 then Some(HoursPositive)
    else None
  }

  /** The payload for an entry that passed: dependencies are forwarded as they are, or `[]` if not an array. */
  function ToPayload(e: Entry): (p: Payload)
    requires Passes(e)
    ensures p.title == e.title.value && p.dueDate == e.dueDate.value
    ensures p.hours == e.hours.value && p.importance == e.importance.value
    ensures p.dependencies == if e.dependencies.Some? then e.dependencies.value else []
  {
    Payload(e.title.value, e.dueDate.value, e.hours.value, e.importance.value,
            if e.dependencies.Some? then e.dependencies.value else [])
  }

  /** The prefix every error about entry `i` carries; entries are numbered from 1. */
  function Label(i: nat): (l: string)
    ensures |l| > 7 && l[..5] == "Task " && l[|l| - 2..] == ": "
  {
    "Task " + NatToString(i + 1) + ": "
  }

  /** `data.error || 'Failed to create'`. */
  function RefusalText(error: Option<string>): (r: string)
    ensures r != ""
    ensures Truthy(error) ==> r == error.value
    ensures !Truthy(error) ==> r == FailedToCreate
  {
    if Truthy(error) then error.value else FailedToCreate
  }

  /** The counters and lists the loop keeps. */
  datatype ImportReport = ImportReport(sent: seq<Payload>, successes: nat, failures: nat, errors: seq<string>)

  /** Different entries get different labels, so every error names its own entry. */
  lemma LabelInjective(i: nat, j: nat)
    requires Label(i) == Label(j)
    ensures i == j
  {
    var a := NatToString(i + 1);
    var b := NatToString(j + 1);
    assert a == Label(i)[5..|Label(i)| - 2];
    assert b == Label(j)[5..|Label(j)| - 2];
    NatToStringInjective(i + 1, j + 1);
  }

  /**
   * One turn of the loop for entry `i`: the entry counts once, as a success or
   * as a failure; a failure adds one error text labelled with the entry; a
   * request goes out exactly when the checks pass, and only such a request can
   * succeed.
   */
  function Step(acc: ImportReport, i: nat, e: Entry, outcome: PostOutcome): (r: ImportReport)
    ensures (r.successes == acc.successes + 1 && r.failures == acc.failures)
         || (r.successes == acc.successes && r.failures == acc.failures + 1)
    ensures r.successes == acc.successes + 1 <==> Passes(e) && outcome.Accepted?
    ensures r.failures == acc.failures ==> r.errors == acc.errors
    ensures r.failures == acc.failures + 1 ==>
              |r.errors| == |acc.errors| + 1 && r.errors[..|acc.errors|] == acc.errors
              && Label(i) <= r.errors[|acc.errors|]
    ensures Check(e).Some? ==> r.errors == acc.errors + [Label(i) + Check(e).value]
    ensures Passes(e) && outcome.Refused? ==> r.errors == acc.errors + [Label(i) + RefusalText(outcome.error)]
    ensures Passes(e) && outcome.NetworkError? ==> r.errors == acc.errors + [Label(i) + NetworkFailure]
    ensures r.sent == acc.sent + (if Passes(e) then [ToPayload(e)] else [])
  {
    match Check(e)
    case Some(problem) => acc.(failures := acc.failures + 1, errors := acc.errors + [Label(i) + problem])
    case None =>
      var sent := acc.sent + [ToPayload(e)];
      match outcome
      case Accepted => acc.(sent := sent, successes := acc.successes + 1)
      case Refused(error) =>
        acc.(sent := sent, failures := acc.failures + 1, errors := acc.errors + [Label(i) + RefusalText(error)])
      case NetworkError =>
        acc.(sent := sent, failures := acc.failures + 1, errors := acc.errors + [Label(i) + NetworkFailure])
  }

  /** The payloads of the entries that pass the checks, in order. */
  function Payloads(es: seq<Entry>): (r: seq<Payload>)
    requires forall i :: 0 <= i < |es| ==> Passes(es[i])
    ensures |r| == |es| && forall i :: 0 <= i < |es| ==> r[i] == ToPayload(es[i])
  {
    seq(|es|, i requires 0 <= i < |es| => ToPayload(es[i]))
  }

  function Sendable(entries: seq<Entry>): (r: seq<Payload>) {
    Payloads(Filter(entries, Passes))
  }

  /**
   * The loop over a prefix of the entries. Every entry counts once, as a
   * success or as a failure with one error text; requests go out for exactly
   * the entries that pass the checks, in order, whatever the server answers.
   */
  function ImportOf(entries: seq<Entry>, respond: nat -> PostOutcome): (r: ImportReport)
    ensures r.successes + r.failures == |entries|
    ensures |r.errors| == r.failures
    ensures r.sent == Sendable(entries)
    decreases |entries|
  {
    if entries == [] then ImportReport([], 0, 0, [])
    else
      var n := |entries| - 1;
      assert entries == entries[..n] + [entries[n]];
      FilterSnoc(entries[..n], entries[n], Passes);
      Step(ImportOf(entries[..n], respond), n, entries[n], respond(n))
  }

  /** The loop over one more entry is one more step. */
  lemma ImportOfSnoc(entries: seq<Entry>, respond: nat -> PostOutcome, i: nat)
    requires i < |entries|
    ensures ImportOf(entries[..i + 1], respond) == Step(ImportOf(entries[..i], respond), i, entries[i], respond(i))
  {
    assert entries[..i + 1][..i] == entries[..i];
  }

  /** An entry that fails a check sends nothing and adds the one error naming that check. */
  lemma RejectedEntryNotSent(entries: seq<Entry>, respond: nat -> PostOutcome, i: nat)
    requires i < |entries| && Check(entries[i]).Some?
    ensures var before := ImportOf(entries[..i], respond);
            var after := ImportOf(entries[..i + 1], respond);
            after.sent == before.sent && after.successes == before.successes
            && after.errors == before.errors + [Label(i) + Check(entries[i]).value]
  {
    assert entries[..i + 1][..i] == entries[..i];
  }

  /** "... (N errors total)": the count the summary ends with past three errors. */
  function TotalNote(total: nat): (t: string)
    ensures |t| > 5 && t[..5] == "... ("
  {
    "... (" + NatToString(total) + " errors total)"
  }

  /** The first three errors joined by "; ", and the total when more were collected. */
  function ErrorSummary(errors: seq<string>, total: nat): (r: string)
    ensures |errors| <= 3 ==> r == Join(errors, "; ")
    ensures |errors| > 3 ==> |r| >= |TotalNote(total)| && r[|r| - |TotalNote(total)|..] == TotalNote(total)
    ensures |errors| > 3 ==> r == Join(errors[..3], "; ") + TotalNote(total)
  {
    if |errors| > 3 then Join(errors[..3], "; ") + TotalNote(total) else Join(errors, "; ")
  }

  /** The summary opens with the first error, so the earliest problem is always visible. */
  lemma SummaryStartsWithFirstError(errors: seq<string>, total: nat)
    requires |errors| >= 1
    ensures |errors[0]| <= |ErrorSummary(errors, total)|
    ensures ErrorSummary(errors, total)[..|errors[0]|] == errors[0]
  {
    var k := if |errors| > 3 then 3 else |errors|;
    JoinPrefix(errors[..k], 1, "; ");
    assert errors[..k][..1] == [errors[0]];
    if |errors| <= 3 {
      assert errors[..k] == errors;
    }
  }

  /** The notifications after the loop: successes first, then failures with the summary. */
  function Outcome(r: ImportReport): (ns: seq<Notification>)
    ensures |ns| == (if r.successes > 0 then 1 else 0) + (if r.failures > 0 then 1 else 0)
    ensures r.successes > 0 ==> ns[0].level == SuccessNote
    ensures r.failures > 0 ==> ns[|ns| - 1].level == ErrorNote
  {
    (if r.successes > 0
     then [Notification("Successfully imported " + NatToString(r.successes) + " task(s)", SuccessNote)]
     else [])
    + (if r.failures > 0
       then [Notification("Failed to import " + NatToString(r.failures) + " task(s): "
                          + ErrorSummary(r.errors, r.failures), ErrorNote)]
       else [])
  }

  /** The message that stops the import before any request, if the input is not a non-empty array. */
  function EarlyExit(input: ImportInput): (r: Option<string>)
    ensures r.None? <==> input.Entries? && input.entries != []
    ensures r.Some? ==> r.value != ""
  {
    match input
    case Blank => Some("Please paste JSON data")
    case Unparsable => Some("Invalid JSON format. Please check your syntax.")
    case NotAnArray => Some("JSON must be an array of task objects")
    case Entries(es) => if es == [] then Some("No tasks found in JSON") else None
  }

  /** The whole handler: the early checks, then the loop, then the notifications. */
  method HandleJsonImport(input: ImportInput, respond: nat -> PostOutcome)
    returns (report: ImportReport, notes: seq<Notification>)
    ensures EarlyExit(input).Some? ==>
              report.sent == [] && notes == [Notification(EarlyExit(input).value, ErrorNote)]
    ensures EarlyExit(input).None? ==>
              report == ImportOf(input.entries, respond) && notes == Outcome(report)
    ensures EarlyExit(input).None? ==>
              report.successes + report.failures == |input.entries| && |report.errors| == report.failures
              && report.sent == Sendable(input.entries)
  {
    if input.Blank? || input.Unparsable? || input.NotAnArray? || input.entries == [] {
      report := ImportReport([], 0, 0, []);
      notes := [Notification(EarlyExit(input).value, ErrorNote)];
      return;
    }
    report := ImportLoop(input.entries, respond);
    notes := Outcome(report);
  }

  /** The `for` loop of the handler: one request per entry that passes, awaited in turn. */
  method ImportLoop(entries: seq<Entry>, respond: nat -> PostOutcome) returns (report: ImportReport)
    ensures report == ImportOf(entries, respond)
  {
    var sent: seq<Payload> := [];
    var successCount: nat := 0;
    var errorCount: nat := 0;
    var errors: seq<string> := [];
    var i := 0;
    while i < |entries|
      invariant 0 <= i <= |entries|
      invariant ImportReport(sent, successCount, errorCount, errors) == ImportOf(entries[..i], respond)
    {
      ImportOfSnoc(entries, respond, i);
      sent, successCount, errorCount, errors := Turn(sent, successCount, errorCount, errors, i, entries[i], respond(i));
      i := i + 1;
    }
    assert entries[..|entries|] == entries;
    report := ImportReport(sent, successCount, errorCount, errors);
  }

  /** The body of the loop for entry `i`: the three checks, then the request and its answer. */
  method Turn(sent: seq<Payload>, successCount: nat, errorCount: nat, errors: seq<string>,
              i: nat, e: Entry, outcome: PostOutcome)
    returns (sent': seq<Payload>, successCount': nat, errorCount': nat, errors': seq<string>)
    ensures ImportReport(sent', successCount', errorCount', errors')
         == Step(ImportReport(sent, successCount, errorCount, errors), i, e, outcome)
    ensures (successCount' == successCount + 1 && errorCount' == errorCount)
         || (successCount' == successCount && errorCount' == errorCount + 1)
    ensures successCount' == successCount + 1 <==> Passes(e) && outcome.Accepted?
    ensures errorCount' == errorCount ==> errors' == errors
    ensures errorCount' == errorCount + 1 ==>
              |errors'| == |errors| + 1 && errors'[..|errors|] == errors && Label(i) <= errors'[|errors|]
    ensures sent' == sent + (if Passes(e) then [ToPayload(e)] else [])
    ensures Passes(e) && outcome.Refused? ==> errors' == errors + [Label(i) + RefusalText(outcome.error)]
    ensures Passes(e) && outcome.NetworkError? ==> errors' == errors + [Label(i) + NetworkFailure]
  {
    sent', successCount', errorCount', errors' := sent, successCount, errorCount, errors;
    if !(Truthy(e.title) && Truthy(e.dueDate) && e.hours.Some? && e.importance.Some?) {
      errorCount' := errorCount + 1;
      errors' := errors + [Label(i) + MissingFields];
    } else if e.importance.value < 1 || e.importance.value > 10 {
      errorCount' := errorCount + 1;
      errors' := errors + [Label(i) + ImportanceRange];
    } else if e.hours.value <= 0.0 {
      errorCount' := errorCount + 1;
      errors' := errors + [Label(i) + HoursPositive];
    } else {
      sent' := sent + [ToPayload(e)];
      match outcome
      case Accepted =>
        successCount' := successCount + 1;
      case Refused(error) =>
        errorCount' := errorCount + 1;
        errors' := errors + [Label(i) + RefusalText(error)];
      case NetworkError =>
        errorCount' := errorCount + 1;
        errors' := errors + [Label(i) + NetworkFailure];
    }
  }

  /**
   * The client checks are looser than the model's validators: an entry with
   * 0.05 hours passes and is sent, though the stored task would be invalid.
   */
  lemma ImportSendsHoursBelowModelMinimum()
    ensures var e := Entry(Some("T"), Some("2025-01-01"), Some(0.05), Some(5), None);
            Passes(e) && ToPayload(e).hours < MinHours
  {
  }
}

=== FILE: models.dfy ===
/**
 * The `Task` record of backend/tasks/models.py, its field validators as a
 * validity predicate, and the task table as a store of rows in primary-key
 * order. Dates are day numbers; `estimated_hours` is an exact real.
 */
module Models {
  import opened Wrappers
  import opened DependencyGraph

  datatype Task = Task(
    id: int,
    title: string,
    dueDate: int,
    hours: real,
    importance: int,
    deps: seq<int>,      // ids this task depends on, in the order the links were added
    completed: bool)

  const MaxTitleLength: nat := 200
  const MinHours: real := 0.1
  const MinImportance: int := 1
  const MaxImportance: int := 10

  /**
   * The field bounds the model declares: a non-blank title (`blank` defaults
   * to False) of at most `max_length` characters, and the value validators.
   */
  predicate Valid(t: Task) {
    && 1 <= |t.title| <= MaxTitleLength
    && t.hours >= MinHours
    && MinImportance <= t.importance <= MaxImportance
  }

  /** Every bound is inclusive: a task sitting on all of them is valid, and one step past any is not. */
  lemma ValidBoundsInclusive(t: Task)
    requires |t.title| == MaxTitleLength && t.hours == MinHours
    requires t.importance == MinImportance || t.importance == MaxImportance
    ensures Valid(t)
    ensures !Valid(t.(title := t.title + "x")) && !Valid(t.(title := ""))
    ensures !Valid(t.(hours := 0.09))
    ensures !Valid(t.(importance := MinImportance - 1)) && !Valid(t.(importance := MaxImportance + 1))
  {
  }

  /** A freshly inserted row: no dependency links, not completed (the field default). */
  function NewTask(id: int, title: string, dueDate: int, hours: real, importance: int): (t: Task)
    ensures !t.completed && t.deps == []
    ensures t.id == id && t.title == title && t.dueDate == dueDate
    ensures t.hours == hours && t.importance == importance
  {
    Task(id, title, dueDate, hours, importance, [], false)
  }

  /** The task table, and the id the auto-increment key will hand out next. */
  datatype Store = Store(rows: seq<Task>, nextId: int)

  /** The row with primary key `id` (`Task.objects.get(id=...)`). */
  function Find(rows: seq<Task>, id: int): (r: Option<Task>)
    ensures r.Some? ==> r.value in rows && r.value.id == id
    ensures r.None? <==> forall i :: 0 <= i < |rows| ==> rows[i].id != id
  {
    if rows == [] then None
    else if rows[0].id == id then Some(rows[0])
    else Find(rows[1..], id)
  }

  predicate HasId(rows: seq<Task>, id: int) {
    Find(rows, id).Some?
  }

  /** `task.dependencies.all()`: the rows the task links to, in link order. */
  function DepRows(rows: seq<Task>, t: Task): (r: seq<Task>)
    ensures |r| <= |t.deps|
    ensures forall i :: 0 <= i < |r| ==> r[i] in rows && r[i].id in t.deps
  {
    DepRowsOf(rows, t.deps)
  }

  function DepRowsOf(rows: seq<Task>, ids: seq<int>): (r: seq<Task>)
    ensures |r| <= |ids|
    ensures forall i :: 0 <= i < |r| ==> r[i] in rows && r[i].id in ids
    ensures forall x :: x in r <==> exists d :: d in ids && Find(rows, d) == Some(x)
  {
    if ids == [] then []
    else
      var rest := DepRowsOf(rows, ids[1..]);
      match Find(rows, ids[0])
      case Some(d) => [d] + rest
      case None => rest
  }

  /** The dependency graph the table encodes: each id maps to the ids it depends on. */
  function GraphOf(rows: seq<Task>): (g: Graph)
    ensures g.Keys == set i | 0 <= i < |rows| :: rows[i].id
  {
    if rows == [] then map[]
    else GraphOf(rows[1..])[rows[0].id := rows[0].deps]
  }

  /** Primary keys strictly increase along the rows, so they are unique. */
  predicate IdsIncreasing(rows: seq<Task>) {
    forall i, j :: 0 <= i < j < |rows| ==> rows[i].id < rows[j].id
  }

  predicate NoDuplicates(s: seq<int>) {
    forall i, j :: 0 <= i < j < |s| ==> s[i] != s[j]
  }

  /**
   * What the database guarantees about the table: unique increasing keys below
   * the next auto-increment value, links only to existing rows (the foreign key),
   * and at most one link per pair (the through table's unique constraint).
   */
  ghost predicate WellFormed(s: Store) {
    && IdsIncreasing(s.rows)
    && (forall i :: 0 <= i < |s.rows| ==> s.rows[i].id < s.nextId)
    && (forall i, d :: 0 <= i < |s.rows| && d in s.rows[i].deps ==> HasId(s.rows, d))
    && (forall i :: 0 <= i < |s.rows| ==> NoDuplicates(s.rows[i].deps))
  }

  /** In a table with unique keys, the graph maps each row's key to that row's links. */
  lemma {:induction false} GraphOfRow(rows: seq<Task>, i: nat)
    requires IdsIncreasing(rows)
    requires i < |rows|
    ensures rows[i].id in GraphOf(rows) && GraphOf(rows)[rows[i].id] == rows[i].deps
    decreases |rows|
  {
    if i > 0 {
      GraphOfRow(rows[1..], i - 1);
    }
  }

  /** The graph maps a key to the links of the first row with that key, as `get` finds it. */
  lemma {:induction false} GraphOfFind(rows: seq<Task>, a: int)
    ensures a in GraphOf(rows) <==> HasId(rows, a)
    ensures HasId(rows, a) ==> GraphOf(rows)[a] == Find(rows, a).value.deps
    decreases |rows|
  {
    if rows != [] {
      GraphOfFind(rows[1..], a);
    }
  }

  /** Links are directed: adding A -> B leaves B's own links as they were. */
  lemma DependenciesAreDirected()
    ensures var a := Task(1, "A", 0, 1.0, 5, [2], false);
            var b := Task(2, "B", 0, 1.0, 5, [], false);
            var g := GraphOf([a, b]);
            Edge(g, 1, 2) && !Edge(g, 2, 1)
  {
    var a := Task(1, "A", 0, 1.0, 5, [2], false);
    var b := Task(2, "B", 0, 1.0, 5, [], false);
    GraphOfRow([a, b], 0);
    GraphOfRow([a, b], 1);
  }

  /** Saving a row with a fresh key keeps every lookup of the other keys. */
  lemma {:induction false} FindAppend(rows: seq<Task>, u: Task, d: int)
    requires !HasId(rows, u.id)
    ensures Find(rows + [u], d) == if d == u.id then Some(u) else Find(rows, d)
    decreases |rows|
  {
    if rows == [] {
    } else {
      assert (rows + [u])[1..] == rows[1..] + [u];
      if rows[0].id != d {
        FindAppend(rows[1..], u, d);
      }
    }
  }

  /** Saving a row with a fresh key adds that key to the graph with the row's links. */
  lemma {:induction false} GraphOfAppend(rows: seq<Task>, u: Task)
    requires !HasId(rows, u.id)
    ensures GraphOf(rows + [u]) == GraphOf(rows)[u.id := u.deps]
    decreases |rows|
  {
    if rows == [] {
      assert GraphOf([u]) == GraphOf([])[u.id := u.deps];
    } else {
      assert (rows + [u])[1..] == rows[1..] + [u];
      GraphOfAppend(rows[1..], u);
      assert rows[0].id != u.id;
    }
  }
}

=== FILE: scoring.dfy ===
/**
 * `calculate_priority_score` (backend/task_analyzer/scoring.py): the blocking
 * rule, the urgency / importance / effort terms and the explanation text.
 * `today` is a parameter and dates are day numbers, so `days` below is
 * `(due_date - today).days`. Scores are exact reals, before Python's rounding.
 */
module Scoring {
  import opened Wrappers
  import opened Strings
  import opened Models

  const BlockedScore: real := -1.0

  function Min(a: int, b: int): (m: int)
    ensures m <= a && m <= b && (m == a || m == b)
  {
    if a <= b then a else b
  }

  /** The urgency term for a task due `days` days from today (negative when overdue). */
  function Urgency(days: int): (u: real)
    ensures days < 0 ==> 105.0 <= u <= 300.0
    ensures days == 0 ==> u == 90.0
    ensures days > 0 ==> 0.0 < u <= 40.0
  {
    if days < 0 then 100.0 + Min(-days * 5, 200) as real
    else if days == 0 then 90.0
    else 80.0 / (days + 1) as real
  }

  /** 80 / a decreases as a grows. */
  lemma DivAntitone(a: real, b: real)
    requires 0.0 < a < b
    ensures 80.0 / a > 80.0 / b
  {
    var x := 80.0 / a;
    var y := 80.0 / b;
    assert x * a == 80.0;
    assert y * b == 80.0;
    assert x * (b - a) > 0.0;
    assert (x - y) * b == x * (b - a);
  }

  /** Any overdue task out-ranks one due today, which out-ranks any future one; nearer future dates score higher. */
  lemma UrgencyOrdering(late: int, ahead: int, further: int)
    requires late < 0 && 0 < ahead < further
    ensures Urgency(late) > Urgency(0) > Urgency(ahead) > Urgency(further)
  {
    DivAntitone((ahead + 1) as real, (further + 1) as real);
  }

  /** Overdue urgency grows by 5 a day and stops growing at 300, reached 40 days late. */
  lemma OverdueUrgencyCapped(days: int)
    requires days < 0
    ensures Urgency(days) == if days <= -40 then 300.0 else 100.0 + (-5 * days) as real
    ensures days < -1 ==> Urgency(days) >= Urgency(days + 1)
  {
  }

  function ImportanceTerm(importance: int): real {
    1.5 * importance as real
  }

  /** The quick-win bonus and the long-task penalty. */
  function EffortTerm(hours: real): (e: real)
    ensures e == 10.0 <==> hours < 2.0
    ensures e == -5.0 <==> hours > 8.0
    ensures e == 0.0 <==> 2.0 <= hours <= 8.0
  {
    if hours < 2.0 then 10.0 else if hours > 8.0 then -5.0 else 0.0
  }

  const DueVerySoon := "Due very soon"
  const HighImportance := "High importance"
  const QuickWin := "Quick win (< 2h)"
  const StandardPriority := "Standard priority"

  /** The `reasons` list, in the order the three checks append to it. */
  function Reasons(days: int, importance: int, hours: real): (rs: seq<string>)
    ensures DueVerySoon in rs <==> days <= 0
    ensures HighImportance in rs <==> importance >= 8
    ensures QuickWin in rs <==> hours < 2.0
    ensures |rs| <= 3
    ensures forall x :: x in rs ==> x == DueVerySoon || x == HighImportance || x == QuickWin
    ensures DueVerySoon in rs ==> rs[0] == DueVerySoon
    ensures QuickWin in rs ==> rs[|rs| - 1] == QuickWin
    ensures |rs| == (if days <= 0 then 1 else 0) + (if importance >= 8 then 1 else 0) + (if hours < 2.0 then 1 else 0)
  {
    (if Urgency(days) > 80.0 then [DueVerySoon] else [])
    + (if importance >= 8 then [HighImportance] else [])
    + (if EffortTerm(hours) > 0.0 then [QuickWin] else [])
  }

  /** Which of the three explanation shapes applies, and the reasons it carries. */
  datatype Explanation =
    | Overdue(daysLate: nat)
    | DueToday(reasons: seq<string>)
    | Ahead(reasons: seq<string>)

  function Explain(days: int, importance: int, hours: real): (e: Explanation)
    ensures e.Overdue? <==> days < 0
    ensures e.DueToday? <==> days == 0
    ensures e.Overdue? ==> e.daysLate == -days
    ensures !e.Overdue? ==> e.reasons == Reasons(days, importance, hours)
  {
    if days < 0 then Overdue(-days)
    else if days == 0 then DueToday(Reasons(days, importance, hours))
    else Ahead(Reasons(days, importance, hours))
  }

  /** The reasons joined by ", ", or "Standard priority" when there are none. */
  function JoinReasons(rs: seq<string>): string {
    if rs == [] then StandardPriority else Join(rs, ", ")
  }

  /** The explanation text: the OVERDUE line, the due-today line, or the reasons alone. */
  function Render(e: Explanation): (r: string)
    ensures e.Overdue? ==> |r| > 11 && r[..11] == "OVERDUE by "
    ensures e.DueToday? ==> |r| >= 11 && r[..11] == "Due today! "
    ensures e.Ahead? && e.reasons == [] ==> r == StandardPriority
    ensures e.Ahead? && |e.reasons| == 1 ==> r == e.reasons[0]
    ensures !e.Overdue? && |e.reasons| >= 1 ==>
              r == (if e.DueToday? then "Due today! " else "") + Join(e.reasons, ", ")
  {
    match e
    case Overdue(n) => "OVERDUE by " + NatToString(n) + " days!"
    case DueToday(rs) => "Due today! " + JoinReasons(rs)
    case Ahead(rs) => JoinReasons(rs)
  }

  /**
   * "Due very soon" is only ever shown for a task due today: an overdue task's
   * text is the OVERDUE line alone, and a future task's urgency is at most 40.
   */
  lemma DueVerySoonOnlyToday(days: int, importance: int, hours: real)
    ensures days < 0 ==> Render(Explain(days, importance, hours)) == "OVERDUE by " + NatToString(-days) + " days!"
    ensures days == 0 ==> Render(Explain(days, importance, hours))
                          == "Due today! " + Join(Reasons(days, importance, hours), ", ")
    ensures days == 0 ==> Reasons(days, importance, hours)[0] == DueVerySoon
    ensures days > 0 ==> DueVerySoon !in Explain(days, importance, hours).reasons
  {
  }

  /** The score and explanation `calculate_priority_score` returns. */
  datatype Priority = Priority(score: real, explanation: string)

  /** The position of the first dependency that is not completed, if any. */
  function FirstIncomplete(deps: seq<Task>): (r: Option<nat>)
    ensures r.Some? ==> r.value < |deps| && !deps[r.value].completed
                        && forall j :: 0 <= j < r.value ==> deps[j].completed
    ensures r.None? <==> forall j :: 0 <= j < |deps| ==> deps[j].completed
  {
    if deps == [] then None
    else if !deps[0].completed then Some(0)
    else match FirstIncomplete(deps[1..])
      case Some(i) => Some(i + 1)
      case None => None
  }

  /** `calculate_priority_score(task)` given the task's dependency rows and today's day number. */
  function PriorityScore(t: Task, deps: seq<Task>, today: int): (p: Priority)
    ensures (exists j :: 0 <= j < |deps| && !deps[j].completed) ==> p.score == BlockedScore
    ensures (forall j :: 0 <= j < |deps| ==> deps[j].completed) ==>
              ImportanceTerm(t.importance) - 5.0 < p.score <= ImportanceTerm(t.importance) + 310.0
  {
    match FirstIncomplete(deps)
    case Some(i) => Priority(BlockedScore, "Blocked by incomplete task: " + deps[i].title)
    case None =>
      var days := t.dueDate - today;
      Priority(Urgency(days) + ImportanceTerm(t.importance) + EffortTerm(t.hours),
               Render(Explain(days, t.importance, t.hours)))
  }

  /** A task with an open dependency scores -1.0 and names the first open dependency in link order. */
  lemma BlockedByFirstOpenDependency(t: Task, deps: seq<Task>, today: int)
    requires exists j :: 0 <= j < |deps| && !deps[j].completed
    ensures PriorityScore(t, deps, today).score == BlockedScore
    ensures exists i :: 0 <= i < |deps| && !deps[i].completed
                        && (forall j :: 0 <= j < i ==> deps[j].completed)
                        && PriorityScore(t, deps, today).explanation
                           == "Blocked by incomplete task: " + deps[i].title
  {
  }

  /** Without open dependencies the score is the sum of the three terms, within 5 below and 310 above the importance term. */
  lemma UnblockedScoreIsSumOfTerms(t: Task, deps: seq<Task>, today: int)
    requires forall j :: 0 <= j < |deps| ==> deps[j].completed
    ensures var days := t.dueDate - today;
            var p := PriorityScore(t, deps, today);
            && p.score == Urgency(days) + ImportanceTerm(t.importance) + EffortTerm(t.hours)
            && p.explanation == Render(Explain(days, t.importance, t.hours))
            && ImportanceTerm(t.importance) - 5.0 < p.score <= ImportanceTerm(t.importance) + 310.0
  {
    assert FirstIncomplete(deps).None?;
  }

  /**
   * A task with no open dependency can still score below zero: due three weeks
   * or more ahead, importance 1 or less and more than 8 hours of effort.
   */
  lemma UnblockedCanScoreNegative(t: Task, deps: seq<Task>, today: int)
    requires forall j :: 0 <= j < |deps| ==> deps[j].completed
    requires t.dueDate - today >= 22 && t.importance <= 1 && t.hours > 8.0
    ensures PriorityScore(t, deps, today).score < 0.0
  {
    UnblockedScoreIsSumOfTerms(t, deps, today);
    var d := (t.dueDate - today + 1) as real;
    var x := 80.0 / d;
    assert x * d == 80.0;
    assert (3.5 - x) * d == 3.5 * d - 80.0;
  }

  /** An unblocked task can score exactly the blocked sentinel -1.0, so the score alone does not tell them apart. */
  lemma UnblockedCanEqualBlockedScore()
    ensures var t := Task(1, "T", 31, 9.0, 1, [], false);
            PriorityScore(t, [], 0) == Priority(BlockedScore, StandardPriority)
  {
    assert 80.0 / 32.0 == 2.5;
    assert Reasons(31, 1, 9.0) == [];
  }

  /** Every explanation has text, so a reader's fallback for an empty one is never used. */
  lemma ExplanationNonEmpty(t: Task, deps: seq<Task>, today: int)
    ensures PriorityScore(t, deps, today).explanation != ""
  {
    var p := PriorityScore(t, deps, today);
    if FirstIncomplete(deps).Some? {
      assert p.explanation[0] == 'B';
    } else {
      var days := t.dueDate - today;
      var rs := Reasons(days, t.importance, t.hours);
      if days > 0 && rs != [] {
        assert rs[0] in {DueVerySoon, HighImportance, QuickWin};
        assert |Join(rs, ", ")| >= |rs[0]|;
      }
    }
  }
}

=== FILE: seqs.dfy ===
/** Order-preserving filtering, the shape of every list comprehension with an `if` in the source. */
module Seqs {

  /** The elements of `s` that satisfy `p`, in the order of `s`. */
  function Filter<T(!new)>(s: seq<T>, p: T -> bool): (r: seq<T>)
    ensures |r| <= |s|
    ensures forall i :: 0 <= i < |r| ==> r[i] in s && p(r[i])
  {
    if s == [] then []
    else
      assert s == [s[0]] + s[1..];
      (if p(s[0]) then [s[0]] else []) + Filter(s[1..], p)
  }

  /** Filtering keeps every occurrence of a kept value and drops every occurrence of the others. */
  lemma {:induction false} FilterCount<T(!new)>(s: seq<T>, p: T -> bool)
    ensures forall x :: multiset(Filter(s, p))[x] == if p(x) then multiset(s)[x] else 0
    decreases |s|
  {
    if s != [] {
      FilterCount(s[1..], p);
      assert s == [s[0]] + s[1..];
    }
  }

  lemma FilterMembership<T(!new)>(s: seq<T>, p: T -> bool)
    ensures forall x :: x in Filter(s, p) <==> x in s && p(x)
  {
    FilterCount(s, p);
    forall x
      ensures x in Filter(s, p) <==> x in s && p(x)
    {
      assert x in Filter(s, p) <==> multiset(Filter(s, p))[x] > 0;
      assert x in s <==> multiset(s)[x] > 0;
    }
  }

  /** Filtering a sequence with one more element at the end. */
  lemma {:induction false} FilterSnoc<T(!new)>(s: seq<T>, x: T, p: T -> bool)
    ensures Filter(s + [x], p) == Filter(s, p) + (if p(x) then [x] else [])
    decreases |s|
  {
    if s == [] {
      assert [x][1..] == [];
    } else {
      assert (s + [x])[1..] == s[1..] + [x];
      FilterSnoc(s[1..], x, p);
    }
  }

  /** `lt` holds between every earlier and every later element. */
  ghost predicate Chain<T>(s: seq<T>, lt: (T, T) -> bool) {
    forall i, j :: 0 <= i < j < |s| ==> lt(s[i], s[j])
  }

  /** Filtering keeps the relative order of the elements it keeps. */
  lemma {:induction false} FilterChain<T(!new)>(s: seq<T>, p: T -> bool, lt: (T, T) -> bool)
    requires Chain(s, lt)
    ensures Chain(Filter(s, p), lt)
    decreases |s|
  {
    if s != [] {
      FilterChain(s[1..], p, lt);
      var tail := Filter(s[1..], p);
      forall i | 0 <= i < |tail|
        ensures lt(s[0], tail[i])
      {
        var j :| 0 <= j < |s[1..]| && s[1..][j] == tail[i];
        assert s[j + 1] == tail[i];
      }
    }
  }

  /** Permutations have the same members. */
  lemma PermutationMembers<T>(a: seq<T>, b: seq<T>)
    requires multiset(a) == multiset(b)
    ensures forall x :: x in a <==> x in b
  {
    forall x
      ensures x in a <==> x in b
    {
      assert x in a <==> x in multiset(a);
      assert x in b <==> x in multiset(b);
    }
  }
}

=== FILE: sorting.dfy ===
/**
 * A stable sort by a real-valued key. Python's `list.sort(key=...)` (also with
 * `reverse=True`) and ECMAScript 2019's `Array.prototype.sort` are both stable:
 * elements whose keys compare equal keep their input order. Descending orders
 * are obtained by sorting on the negated key.
 */
module Sorting {
  import opened Seqs

  /** Keys never decrease along `s`. */
  ghost predicate SortedBy<T>(s: seq<T>, key: T -> real) {
    forall i, j :: 0 <= i < j < |s| ==> key(s[i]) <= key(s[j])
  }

  /** The subsequence of `s` whose key is exactly `k`, in the order of `s`. */
  function WithKey<T, K(==)>(s: seq<T>, key: T -> K, k: K): (r: seq<T>)
    ensures |r| <= |s|
  {
    if s == [] then []
    else (if key(s[0]) == k then [s[0]] else []) + WithKey(s[1..], key, k)
  }

  lemma {:induction false} WithKeyAppend<T, K>(a: seq<T>, b: seq<T>, key: T -> K, k: K)
    ensures WithKey(a + b, key, k) == WithKey(a, key, k) + WithKey(b, key, k)
    decreases |a|
  {
    if a == [] {
      assert a + b == b;
    } else {
      var head := if key(a[0]) == k then [a[0]] else [];
      assert (a + b)[0] == a[0];
      assert (a + b)[1..] == a[1..] + b;
      WithKeyAppend(a[1..], b, key, k);
      calc {
        WithKey(a + b, key, k);
        head + WithKey(a[1..] + b, key, k);
        head + (WithKey(a[1..], key, k) + WithKey(b, key, k));
        (head + WithKey(a[1..], key, k)) + WithKey(b, key, k);
        WithKey(a, key, k) + WithKey(b, key, k);
      }
    }
  }

  lemma {:induction false} WithKeyAbsent<T, K>(s: seq<T>, key: T -> K, k: K)
    requires forall i :: 0 <= i < |s| ==> key(s[i]) != k
    ensures WithKey(s, key, k) == []
    decreases |s|
  {
    if s != [] {
      WithKeyAbsent(s[1..], key, k);
    }
  }

  /** Permutations have key classes of the same size. */
  lemma {:induction false} WithKeyCountPermutation<T, K>(a: seq<T>, b: seq<T>, key: T -> K, k: K)
    requires multiset(a) == multiset(b)
    ensures |WithKey(a, key, k)| == |WithKey(b, key, k)|
    decreases |a|
  {
    if a == [] {
      assert |b| == |multiset(b)| == 0;
    } else {
      assert a == [a[0]] + a[1..];
      assert a[0] in multiset(b);
      var p :| 0 <= p < |b| && b[p] == a[0];
      var b' := b[..p] + b[p + 1..];
      assert b == b[..p] + [b[p]] + b[p + 1..];
      assert multiset(b) == multiset(b[..p]) + multiset{b[p]} + multiset(b[p + 1..]);
      assert multiset(b') == multiset(b[..p]) + multiset(b[p + 1..]);
      assert multiset(a) == multiset{a[0]} + multiset(a[1..]);
      assert multiset(a[1..]) == multiset(a) - multiset{a[0]};
      assert multiset(b') == multiset(b) - multiset{b[p]};
      WithKeyCountPermutation(a[1..], b', key, k);
      WithKeyAppend(b[..p] + [b[p]], b[p + 1..], key, k);
      WithKeyAppend(b[..p], [b[p]], key, k);
      WithKeyAppend(b[..p], b[p + 1..], key, k);
      WithKeyAppend([a[0]], a[1..], key, k);
    }
  }

  /** Places `x` after every element whose key is at most its own. */
  function Insert<T>(x: T, s: seq<T>, key: T -> real): (r: seq<T>)
    ensures multiset(r) == multiset(s) + multiset{x}
    ensures |r| == |s| + 1
  {
    if s == [] then [x]
    else if key(s[0]) <= key(x) then
      assert s == [s[0]] + s[1..];
      [s[0]] + Insert(x, s[1..], key)
    else [x] + s
  }

  lemma {:induction false} InsertLowerBound<T>(x: T, s: seq<T>, key: T -> real, lo: real)
    requires lo <= key(x)
    requires forall i :: 0 <= i < |s| ==> lo <= key(s[i])
    ensures forall i :: 0 <= i < |Insert(x, s, key)| ==> lo <= key(Insert(x, s, key)[i])
    decreases |s|
  {
    if s != [] && key(s[0]) <= key(x) {
      InsertLowerBound(x, s[1..], key, lo);
    }
  }

  lemma {:induction false} InsertSorted<T>(x: T, s: seq<T>, key: T -> real)
    requires SortedBy(s, key)
    ensures SortedBy(Insert(x, s, key), key)
    decreases |s|
  {
    if s != [] && key(s[0]) <= key(x) {
      InsertSorted(x, s[1..], key);
      InsertLowerBound(x, s[1..], key, key(s[0]));
      var tail := Insert(x, s[1..], key);
      assert Insert(x, s, key) == [s[0]] + tail;
    }
  }

  /** The key class of a sequence with one element in front. */
  lemma WithKeyCons<T, K>(x: T, s: seq<T>, key: T -> K, k: K)
    ensures WithKey([x] + s, key, k) == (if key(x) == k then [x] else []) + WithKey(s, key, k)
  {
    assert ([x] + s)[1..] == s;
  }

  /** Putting the same element in front of two sequences keeps a relation between their key classes. */
  lemma ConsWithKey<T, K>(h: T, a: seq<T>, b: seq<T>, extra: seq<T>, key: T -> K, k: K)
    requires WithKey(a, key, k) == WithKey(b, key, k) + extra
    ensures WithKey([h] + a, key, k) == WithKey([h] + b, key, k) + extra
  {
    WithKeyCons(h, a, key, k);
    WithKeyCons(h, b, key, k);
    ConcatAssoc(if key(h) == k then [h] else [], WithKey(b, key, k), extra);
  }

  lemma ConcatAssoc<T>(a: seq<T>, b: seq<T>, c: seq<T>)
    ensures a + (b + c) == (a + b) + c
  {
  }

  /** Inserting `x` into a sorted sequence appends it to its own key class. */
  lemma {:induction false} InsertWithKey<T>(x: T, s: seq<T>, key: T -> real, k: real)
    requires SortedBy(s, key)
    ensures WithKey(Insert(x, s, key), key, k)
         == WithKey(s, key, k) + (if key(x) == k then [x] else [])
    decreases |s|
  {
    if s == [] {
      WithKeyCons(x, [], key, k);
    } else if key(s[0]) <= key(x) {
      InsertWithKey(x, s[1..], key, k);
      ConsWithKey(s[0], Insert(x, s[1..], key), s[1..], if key(x) == k then [x] else [], key, k);
      assert s == [s[0]] + s[1..];
    } else {
      WithKeyCons(x, s, key, k);
      if key(x) == k {
        WithKeyAbsent(s, key, k);
      }
    }
  }

  /** Insertion sort: stable, sorted by `key`, and a permutation of its input. */
  function SortBy<T>(s: seq<T>, key: T -> real): (r: seq<T>)
    ensures multiset(r) == multiset(s)
    ensures |r| == |s|
    decreases |s|
  {
    if s == [] then []
    else
      assert s == s[..|s| - 1] + [s[|s| - 1]];
      Insert(s[|s| - 1], SortBy(s[..|s| - 1], key), key)
  }

  /** `SortBy` orders by key, and within each key class keeps the input order. */
  lemma {:induction false} SortByCorrect<T>(s: seq<T>, key: T -> real)
    ensures SortedBy(SortBy(s, key), key)
    ensures forall k :: WithKey(SortBy(s, key), key, k) == WithKey(s, key, k)
    decreases |s|
  {
    if s != [] {
      var front := s[..|s| - 1];
      var x := s[|s| - 1];
      SortByCorrect(front, key);
      InsertSorted(x, SortBy(front, key), key);
      assert s == front + [x];
      assert SortBy(s, key) == Insert(x, SortBy(front, key), key);
      forall k
        ensures WithKey(SortBy(s, key), key, k) == WithKey(s, key, k)
      {
        InsertKeepsClass(front, SortBy(front, key), x, key, k);
      }
    }
  }

  /** Inserting the next element into the sorted front keeps its key class equal to the input's. */
  lemma InsertKeepsClass<T>(front: seq<T>, sorted: seq<T>, x: T, key: T -> real, k: real)
    requires SortedBy(sorted, key)
    requires WithKey(sorted, key, k) == WithKey(front, key, k)
    ensures WithKey(Insert(x, sorted, key), key, k) == WithKey(front + [x], key, k)
  {
    InsertWithKey(x, sorted, key, k);
    WithKeyAppend(front, [x], key, k);
  }

  lemma {:induction false} WithKeyElements<T, K>(s: seq<T>, key: T -> K, k: K)
    ensures forall i :: 0 <= i < |WithKey(s, key, k)| ==> WithKey(s, key, k)[i] in s && key(WithKey(s, key, k)[i]) == k
    decreases |s|
  {
    if s != [] {
      WithKeyElements(s[1..], key, k);
    }
  }

  lemma {:induction false} WithKeyMember<T, K>(s: seq<T>, key: T -> K, i: nat)
    requires i < |s|
    ensures s[i] in WithKey(s, key, key(s[i]))
    decreases |s|
  {
    if i > 0 {
      WithKeyMember(s[1..], key, i - 1);
    }
  }

  /** Two elements with the same key appear in that key's class in the order they have in `s`. */
  lemma {:induction false} WithKeyKeepsOrder<T, K>(s: seq<T>, key: T -> K, i: nat, j: nat)
    requires i < j < |s| && key(s[i]) == key(s[j])
    ensures exists p, q :: 0 <= p < q < |WithKey(s, key, key(s[i]))|
              && WithKey(s, key, key(s[i]))[p] == s[i] && WithKey(s, key, key(s[i]))[q] == s[j]
    decreases |s|
  {
    var k := key(s[i]);
    var w := WithKey(s, key, k);
    var rest := WithKey(s[1..], key, k);
    if i == 0 {
      WithKeyMember(s[1..], key, j - 1);
      var q :| 0 <= q < |rest| && rest[q] == s[j];
      assert w[0] == s[i] && w[q + 1] == s[j];
    } else {
      WithKeyKeepsOrder(s[1..], key, i - 1, j - 1);
      var p, q :| 0 <= p < q < |rest| && rest[p] == s[i] && rest[q] == s[j];
      if key(s[0]) == k {
        assert w[p + 1] == s[i] && w[q + 1] == s[j];
      } else {
        assert w[p] == s[i] && w[q] == s[j];
      }
    }
  }

  /** A key class of a chain is a chain. */
  lemma {:induction false} WithKeyChain<T, K>(s: seq<T>, key: T -> K, k: K, lt: (T, T) -> bool)
    requires Chain(s, lt)
    ensures Chain(WithKey(s, key, k), lt)
    decreases |s|
  {
    if s != [] {
      WithKeyChain(s[1..], key, k, lt);
      WithKeyElements(s[1..], key, k);
      var rest := WithKey(s[1..], key, k);
      forall i | 0 <= i < |rest|
        ensures lt(s[0], rest[i])
      {
        var j :| 0 <= j < |s[1..]| && s[1..][j] == rest[i];
        assert s[j + 1] == rest[i];
      }
    }
  }

  /**
   * A stable re-sort of a chain keeps the chain's order among elements whose
   * new keys tie.
   */
  lemma StableKeepsOrderOnTies<T, K>(a: seq<T>, r: seq<T>, key: T -> K, lt: (T, T) -> bool)
    requires Chain(a, lt)
    requires forall k :: WithKey(r, key, k) == WithKey(a, key, k)
    ensures forall i, j :: 0 <= i < j < |r| && key(r[i]) == key(r[j]) ==> lt(r[i], r[j])
  {
    forall i, j | 0 <= i < j < |r| && key(r[i]) == key(r[j])
      ensures lt(r[i], r[j])
    {
      var k := key(r[i]);
      WithKeyKeepsOrder(r, key, i, j);
      var w := WithKey(r, key, k);
      var p, q :| 0 <= p < q < |w| && w[p] == r[i] && w[q] == r[j];
      WithKeyChain(a, key, k, lt);
      assert w == WithKey(a, key, k);
    }
  }
}

=== FILE: strings.dfy ===
/**
 * Text helpers the source gets from its languages: decimal rendering of
 * integers (Python f-strings, JavaScript template literals and `String(n)`)
 * and `", ".join(...)` / `Array.prototype.join`.
 */
module Strings {

  predicate IsDigit(c: char) {
    '0' <= c <= '9'
  }

  function DigitChar(d: nat): (c: char)
    requires d < 10
    ensures IsDigit(c) && c as int - '0' as int == d
  {
    ('0' as int + d) as char
  }

  function DigitValue(c: char): (d: nat)
    requires IsDigit(c)
    ensures d < 10
  {
    c as int - '0' as int
  }

  /** Canonical decimal text of a natural number: digits only, no leading zero. */
  function NatToString(n: nat): (s: string)
    ensures |s| >= 1
    ensures forall i :: 0 <= i < |s| ==> IsDigit(s[i])
    ensures n >= 1 ==> s[0] != '0'
    decreases n
  {
    if n < 10 then [DigitChar(n)] else NatToString(n / 10) + [DigitChar(n % 10)]
  }

  /** The value of a string of digits, read most significant digit first. */
  function ParseDigits(s: string): nat
    requires forall i :: 0 <= i < |s| ==> IsDigit(s[i])
  {
    if s == [] then 0 else ParseDigits(s[..|s| - 1]) * 10 + DigitValue(s[|s| - 1])
  }

  /** Reading the rendered digits back gives the number again. */
  lemma {:induction false} ParseNatToString(n: nat)
    ensures ParseDigits(NatToString(n)) == n
    decreases n
  {
    var s := NatToString(n);
    if n >= 10 {
      ParseNatToString(n / 10);
      assert s[..|s| - 1] == NatToString(n / 10);
    }
  }

  /** Rendering is injective: two numbers with the same text are equal. */
  lemma NatToStringInjective(a: nat, b: nat)
    requires NatToString(a) == NatToString(b)
    ensures a == b
  {
    ParseNatToString(a);
    ParseNatToString(b);
  }

  /** Decimal text of any integer, with a leading '-' for negatives. */
  function IntToString(i: int): (s: string)
    ensures |s| >= 1
    ensures (s[0] == '-') <==> i < 0
  {
    if i < 0 then "-" + NatToString(-i) else NatToString(i)
  }

  lemma IntToStringInjective(a: int, b: int)
    requires IntToString(a) == IntToString(b)
    ensures a == b
  {
    if a < 0 {
      assert IntToString(a)[1..] == NatToString(-a);
      assert IntToString(b)[1..] == NatToString(-b);
      NatToStringInjective(-a, -b);
    } else {
      NatToStringInjective(a, b);
    }
  }

  /** `sep.join(parts)`: the parts in order with `sep` between neighbours. */
  function Join(parts: seq<string>, sep: string): string {
    if |parts| == 0 then ""
    else if |parts| == 1 then parts[0]
    else parts[0] + sep + Join(parts[1..], sep)
  }

  /** Joining one more part appends the separator and that part. */
  lemma {:induction false} JoinSnoc(parts: seq<string>, last: string, sep: string)
    requires |parts| >= 1
    ensures Join(parts + [last], sep) == Join(parts, sep) + sep + last
    decreases |parts|
  {
    if |parts| == 1 {
      assert (parts + [last])[1..] == [last];
    } else {
      assert (parts + [last])[1..] == parts[1..] + [last];
      JoinSnoc(parts[1..], last, sep);
    }
  }

  /** The text of a join starts with the text of the join of any prefix. */
  lemma {:induction false} JoinPrefix(parts: seq<string>, k: nat, sep: string)
    requires 1 <= k <= |parts|
    ensures |Join(parts[..k], sep)| <= |Join(parts, sep)|
    ensures Join(parts, sep)[..|Join(parts[..k], sep)|] == Join(parts[..k], sep)
    decreases |parts|
  {
    if k == |parts| {
      assert parts[..k] == parts;
    } else {
      var front := parts[..|parts| - 1];
      assert parts == front + [parts[|parts| - 1]];
      assert front[..k] == parts[..k];
      JoinPrefix(front, k, sep);
      JoinSnoc(front, parts[|parts| - 1], sep);
    }
  }
}

=== FILE: views.dfy ===
/**
 * The read-only request handlers of backend/tasks/views.py as pure operations
 * on the task table: listing, analysis and suggestion. `today` is a parameter
 * of the handlers that score tasks. The handlers that write are in `Writes`.
 */
module Views {
  import opened Wrappers
  import opened Seqs
  import opened Sorting
  import opened Models
  import opened Scoring

  datatype HttpMethod = Get | Post | Delete | OtherMethod

  datatype Response =
    | Created(id: int)                    // 201 with the new id
    | Ok                                  // 200 {"status": "success"}
    | Deleted                             // 200 {"status": "success", "message": "Task deleted successfully"}
    | Error(status: int, message: string)

  const MethodNotAllowed: Response := Error(405, "Method not allowed")
  const TaskNotFound: Response := Error(404, "Task not found")
  const CircularDependency: Response := Error(400, "Circular dependency detected! Task rejected.")
  /** The text of Django's `DoesNotExist` raised by `Task.objects.get` for an unknown id. */
  const NoSuchDependency: Response := Error(400, "Task matching query does not exist.")

  /** A handler's response and the table after it. */
  datatype Reply = Reply(response: Response, store: Store)

  // ---------------------------------------------------------------- queries

  predicate IsOpen(t: Task) {
    !t.completed
  }

  predicate IdBefore(a: Task, b: Task) {
    a.id < b.id
  }

  predicate AnalyzedIdBefore(a: Analyzed, b: Analyzed) {
    a.id < b.id
  }

  /** `Task.objects.filter(is_completed=False)`, in primary-key order. */
  function Incomplete(rows: seq<Task>): (r: seq<Task>)
    ensures forall x :: x in r <==> x in rows && !x.completed
    ensures IdsIncreasing(rows) ==> IdsIncreasing(r)
  {
    FilterMembership(rows, IsOpen);
    if IdsIncreasing(rows) then
      assert Chain(rows, IdBefore);
      FilterChain(rows, IsOpen, IdBefore);
      Filter(rows, IsOpen)
    else Filter(rows, IsOpen)
  }

  /** The dependency rows of `t` that are not completed. */
  function OpenDeps(rows: seq<Task>, t: Task): (r: seq<Task>)
    ensures forall x :: x in r <==> x.id in t.deps && Find(rows, x.id) == Some(x) && !x.completed
  {
    FilterMembership(DepRows(rows, t), IsOpen);
    Filter(DepRows(rows, t), IsOpen)
  }

  function Ids(ts: seq<Task>): (r: seq<int>)
    ensures |r| == |ts| && forall i :: 0 <= i < |ts| ==> r[i] == ts[i].id
  {
    seq(|ts|, i requires 0 <= i < |ts| => ts[i].id)
  }

  function Titles(ts: seq<Task>): (r: seq<string>)
    ensures |r| == |ts| && forall i :: 0 <= i < |ts| ==> r[i] == ts[i].title
  {
    seq(|ts|, i requires 0 <= i < |ts| => ts[i].title)
  }

  /** One object of the GET listing; `deps` holds the ids of the open dependencies only. */
  datatype Listed = Listed(
    id: int, title: string, dueDate: int, hours: real, importance: int,
    completed: bool, deps: seq<int>)

  /** The listing object of `t`: its own fields, and as dependencies the ids of its open dependency rows. */
  function ListEntry(rows: seq<Task>, t: Task): (l: Listed)
    ensures l.id == t.id && l.title == t.title && l.dueDate == t.dueDate
    ensures l.hours == t.hours && l.importance == t.importance && l.completed == t.completed
    ensures forall d :: d in l.deps <==> d in t.deps && HasId(rows, d) && !Find(rows, d).value.completed
  {
    OpenDepIds(rows, t);
    Listed(t.id, t.title, t.dueDate, t.hours, t.importance, t.completed, Ids(OpenDeps(rows, t)))
  }

  lemma OpenDepIds(rows: seq<Task>, t: Task)
    ensures forall d :: d in Ids(OpenDeps(rows, t))
                    <==> d in t.deps && HasId(rows, d) && !Find(rows, d).value.completed
  {
    var open := OpenDeps(rows, t);
    forall d
      ensures d in Ids(open) <==> d in t.deps && HasId(rows, d) && !Find(rows, d).value.completed
    {
      if d in Ids(open) {
        var i :| 0 <= i < |open| && Ids(open)[i] == d;
        assert open[i] in open;
      }
      if d in t.deps && HasId(rows, d) && !Find(rows, d).value.completed {
        var x := Find(rows, d).value;
        assert x in open;
        var i :| 0 <= i < |open| && open[i] == x;
        assert Ids(open)[i] == d;
      }
    }
  }

  /** GET on the task list: the open tasks, each with the ids of its open dependencies. */
  function ListTasks(s: Store): (r: seq<Listed>)
    ensures |r| == |Incomplete(s.rows)|
    ensures forall i :: 0 <= i < |r| ==> !r[i].completed && r[i].id == Incomplete(s.rows)[i].id
    ensures forall i :: 0 <= i < |r| ==> r[i] == ListEntry(s.rows, Incomplete(s.rows)[i])
    ensures forall i, d :: 0 <= i < |r| ==>
              (d in r[i].deps <==> d in Incomplete(s.rows)[i].deps && HasId(s.rows, d)
                                   && !Find(s.rows, d).value.completed)
  {
    var open := Incomplete(s.rows);
    assert forall i :: 0 <= i < |open| ==> !open[i].completed by {
      forall i | 0 <= i < |open|
        ensures !open[i].completed
      {
        assert open[i] in open;
      }
    }
    seq(|open|, i requires 0 <= i < |open| => ListEntry(s.rows, open[i]))
  }

  /** A task appears in the listing exactly when its row exists and is not completed. */
  lemma ListTasksShowsOpenTasks(s: Store, id: int)
    ensures (exists i :: 0 <= i < |ListTasks(s)| && ListTasks(s)[i].id == id)
        <==> (exists j :: 0 <= j < |s.rows| && s.rows[j].id == id && !s.rows[j].completed)
  {
    var listed := ListTasks(s);
    var open := Incomplete(s.rows);
    OpenIdExists(s.rows, id);
    if i :| 0 <= i < |listed| && listed[i].id == id {
      assert open[i].id == id;
    }
    if i :| 0 <= i < |open| && open[i].id == id {
      assert listed[i].id == id;
    }
  }

  /** One object of the analyze response. */
  datatype Analyzed = Analyzed(
    id: int, title: string, dueDate: int, score: real, explanation: string,
    hours: real, importance: int, depTitles: seq<string>)

  /** The analyze object of `t`: its fields, its priority, and the titles of its open dependencies in link order. */
  function AnalyzeEntry(rows: seq<Task>, t: Task, today: int): (a: Analyzed)
    ensures a.id == t.id && a.title == t.title && a.dueDate == t.dueDate
    ensures a.hours == t.hours && a.importance == t.importance
    ensures a.score == PriorityScore(t, DepRows(rows, t), today).score
    ensures a.explanation == PriorityScore(t, DepRows(rows, t), today).explanation
    ensures (exists j :: 0 <= j < |t.deps| && HasId(rows, t.deps[j]) && !Find(rows, t.deps[j]).value.completed)
            ==> a.score == BlockedScore
    ensures |a.depTitles| == |OpenDeps(rows, t)|
    ensures forall i :: 0 <= i < |a.depTitles| ==> a.depTitles[i] == OpenDeps(rows, t)[i].title
  {
    OpenDepBlocks(rows, t);
    var p := PriorityScore(t, DepRows(rows, t), today);
    Analyzed(t.id, t.title, t.dueDate, p.score, p.explanation, t.hours, t.importance,
             Titles(OpenDeps(rows, t)))
  }

  /** A linked row that exists and is open shows up, open, among the dependency rows. */
  lemma OpenDepBlocks(rows: seq<Task>, t: Task)
    ensures (exists j :: 0 <= j < |t.deps| && HasId(rows, t.deps[j]) && !Find(rows, t.deps[j]).value.completed)
            ==> exists i :: 0 <= i < |DepRows(rows, t)| && !DepRows(rows, t)[i].completed
  {
    if j :| 0 <= j < |t.deps| && HasId(rows, t.deps[j]) && !Find(rows, t.deps[j]).value.completed {
      var x := Find(rows, t.deps[j]).value;
      assert t.deps[j] in t.deps && Find(rows, t.deps[j]) == Some(x);
      assert x in DepRows(rows, t);
    }
  }

  /** The `scored_tasks` list before sorting: one entry per task of `ts`, in order. */
  function Annotate(rows: seq<Task>, ts: seq<Task>, today: int): (r: seq<Analyzed>)
    ensures |r| == |ts|
    ensures forall i :: 0 <= i < |ts| ==> r[i].id == ts[i].id && r[i].title == ts[i].title
    decreases |ts|
  {
    if ts == [] then [] else [AnalyzeEntry(rows, ts[0], today)] + Annotate(rows, ts[1..], today)
  }

  lemma {:induction false} AnnotateEntries(rows: seq<Task>, ts: seq<Task>, today: int)
    ensures forall i :: 0 <= i < |ts| ==> Annotate(rows, ts, today)[i] == AnalyzeEntry(rows, ts[i], today)
    decreases |ts|
  {
    if ts != [] {
      AnnotateEntries(rows, ts[1..], today);
    }
  }

  /** Sorting ascending on the negated score is `sort(key=score, reverse=True)`. */
  function NegScore(a: Analyzed): real {
    -a.score
  }

  function AnalyzedId(a: Analyzed): int {
    a.id
  }

  function RowId(t: Task): int {
    t.id
  }

  /** POST analyze: the open tasks scored, highest score first, ties in table order. */
  function AnalyzeTasks(s: Store, today: int): (r: seq<Analyzed>)
    ensures multiset(r) == multiset(Annotate(s.rows, Incomplete(s.rows), today))
    ensures forall i, j :: 0 <= i < j < |r| ==> r[i].score >= r[j].score
    ensures forall k :: WithKey(r, NegScore, k)
                     == WithKey(Annotate(s.rows, Incomplete(s.rows), today), NegScore, k)
  {
    var scored := Annotate(s.rows, Incomplete(s.rows), today);
    SortByCorrect(scored, NegScore);
    SortBy(scored, NegScore)
  }

  /** Tasks with equal scores come out of analyze in key order, as the stable sort keeps the query's order. */
  lemma AnalyzeTiesInTableOrder(s: Store, today: int)
    requires IdsIncreasing(s.rows)
    ensures var r := AnalyzeTasks(s, today);
            forall i, j :: 0 <= i < j < |r| && r[i].score == r[j].score ==> r[i].id < r[j].id
  {
    var scored := Annotate(s.rows, Incomplete(s.rows), today);
    CandidatesInTableOrder(s, today);
    ScoreTiesKeepIdOrder(scored, AnalyzeTasks(s, today));
  }

  /** A score-stable reordering of a list in key order leaves equal scores in key order. */
  lemma {:induction false} ScoreTiesKeepIdOrder(a: seq<Analyzed>, r: seq<Analyzed>)
    requires Chain(a, AnalyzedIdBefore)
    requires forall k :: WithKey(r, NegScore, k) == WithKey(a, NegScore, k)
    ensures forall i, j :: 0 <= i < j < |r| && r[i].score == r[j].score ==> r[i].id < r[j].id
  {
    forall k: real
      ensures WithKey(r, NegScore, k) == WithKey(a, NegScore, k)
    {
    }
    StableKeepsOrderOnTies(a, r, NegScore, AnalyzedIdBefore);
    forall i, j | 0 <= i < j < |r| && r[i].score == r[j].score
      ensures r[i].id < r[j].id
    {
      assert NegScore(r[i]) == NegScore(r[j]);
      assert AnalyzedIdBefore(r[i], r[j]);
    }
  }

  /** The analyze endpoint: only POST is allowed. */
  function AnalyzeEndpoint(s: Store, m: HttpMethod, today: int): (r: Result<seq<Analyzed>, Response>)
    ensures r.Failure? <==> m != Post
    ensures r.Failure? ==> r.error == MethodNotAllowed
    ensures r.Success? ==> r.value == AnalyzeTasks(s, today)
  {
    if m == Post then Success(AnalyzeTasks(s, today)) else Failure(MethodNotAllowed)
  }

  lemma {:induction false} AnnotateIdCount(rows: seq<Task>, ts: seq<Task>, today: int, id: int)
    ensures |WithKey(Annotate(rows, ts, today), AnalyzedId, id)| == |WithKey(ts, RowId, id)|
    decreases |ts|
  {
    if ts != [] {
      AnnotateIdCount(rows, ts[1..], today, id);
      assert Annotate(rows, ts, today)[1..] == Annotate(rows, ts[1..], today);
    }
  }

  lemma {:induction false} IncreasingIdCount(ts: seq<Task>, id: int)
    requires IdsIncreasing(ts)
    ensures |WithKey(ts, RowId, id)| == if exists i :: 0 <= i < |ts| && ts[i].id == id then 1 else 0
    decreases |ts|
  {
    if ts != [] {
      IncreasingIdCount(ts[1..], id);
      if ts[0].id == id {
        assert !exists i :: 0 <= i < |ts[1..]| && ts[1..][i].id == id by {
          assert forall i :: 0 <= i < |ts[1..]| ==> ts[1..][i].id > ts[0].id by {
            forall i | 0 <= i < |ts[1..]|
              ensures ts[1..][i].id > ts[0].id
            {
              assert ts[1..][i] == ts[i + 1];
            }
          }
        }
      } else {
        assert (exists i :: 0 <= i < |ts| && ts[i].id == id)
           <==> (exists i :: 0 <= i < |ts[1..]| && ts[1..][i].id == id) by {
          if i :| 0 <= i < |ts| && ts[i].id == id {
            assert ts[1..][i - 1] == ts[i];
          }
        }
      }
    }
  }

  /** Analyze lists every open task exactly once and nothing else. */
  lemma AnalyzeListsOpenTasksOnce(s: Store, today: int, id: int)
    requires IdsIncreasing(s.rows)
    ensures |WithKey(AnalyzeTasks(s, today), AnalyzedId, id)|
         == if exists j :: 0 <= j < |s.rows| && s.rows[j].id == id && !s.rows[j].completed then 1 else 0
  {
    var open := Incomplete(s.rows);
    var scored := Annotate(s.rows, open, today);
    var r := AnalyzeTasks(s, today);
    WithKeyCountPermutation(r, scored, AnalyzedId, id);
    AnnotateIdCount(s.rows, open, today, id);
    IncreasingIdCount(open, id);
    OpenIdExists(s.rows, id);
  }

  /** An open task with a given id exists in the table exactly when one exists among the open tasks. */
  lemma OpenIdExists(rows: seq<Task>, id: int)
    ensures (exists i :: 0 <= i < |Incomplete(rows)| && Incomplete(rows)[i].id == id)
        <==> (exists j :: 0 <= j < |rows| && rows[j].id == id && !rows[j].completed)
  {
    var open := Incomplete(rows);
    if j :| 0 <= j < |rows| && rows[j].id == id && !rows[j].completed {
      assert rows[j] in open;
    }
    if i :| 0 <= i < |open| && open[i].id == id {
      assert open[i] in rows;
    }
  }

  /** One object of the suggest response. */
  datatype Suggestion = Suggestion(title: string, score: real, reason: string)

  function ToSuggestion(a: Analyzed): Suggestion {
    Suggestion(a.title, a.score, a.explanation)
  }

  predicate PositiveScore(a: Analyzed) {
    a.score > 0.0
  }

  /** The open tasks with a score above zero, in table order. */
  function Candidates(s: Store, today: int): (r: seq<Analyzed>)
    ensures forall x :: x in r ==> x.score > 0.0
    ensures forall x :: x in r <==> x in Annotate(s.rows, Incomplete(s.rows), today) && x.score > 0.0
    ensures IdsIncreasing(s.rows) ==> Chain(r, AnalyzedIdBefore)
  {
    var scored := Annotate(s.rows, Incomplete(s.rows), today);
    FilterMembership(scored, PositiveScore);
    CandidatesInTableOrder(s, today);
    Filter(scored, PositiveScore)
  }

  /** The scored open tasks, and the candidates among them, keep the table's key order. */
  lemma CandidatesInTableOrder(s: Store, today: int)
    ensures IdsIncreasing(s.rows) ==> Chain(Annotate(s.rows, Incomplete(s.rows), today), AnalyzedIdBefore)
    ensures IdsIncreasing(s.rows) ==>
              Chain(Filter(Annotate(s.rows, Incomplete(s.rows), today), PositiveScore), AnalyzedIdBefore)
  {
    if IdsIncreasing(s.rows) {
      var scored := Annotate(s.rows, Incomplete(s.rows), today);
      assert Chain(scored, AnalyzedIdBefore);
      FilterChain(scored, PositiveScore, AnalyzedIdBefore);
    }
  }

  /** The candidates, best first. */
  function Ranked(s: Store, today: int): (r: seq<Analyzed>)
    ensures |r| == |Candidates(s, today)|
    ensures forall x :: x in r <==> x in Candidates(s, today)
    ensures forall i, j :: 0 <= i < j < |r| ==> r[i].score >= r[j].score
    ensures forall i :: 0 <= i < |r| ==> r[i].score > 0.0
    ensures multiset(r) == multiset(Candidates(s, today))
    ensures forall k :: WithKey(r, NegScore, k) == WithKey(Candidates(s, today), NegScore, k)
  {
    var cands := Candidates(s, today);
    SortByCorrect(cands, NegScore);
    PermutationMembers(SortBy(cands, NegScore), cands);
    SortBy(cands, NegScore)
  }

  /** The suggestion objects of `ts`, in order. */
  function Suggestions(ts: seq<Analyzed>): (r: seq<Suggestion>)
    ensures |r| == |ts|
    ensures forall i :: 0 <= i < |ts| ==> r[i] == ToSuggestion(ts[i])
  {
    if ts == [] then [] else [ToSuggestion(ts[0])] + Suggestions(ts[1..])
  }

  const SuggestionLimit: nat := 3

  /** GET suggest: the (at most) three best-scoring open tasks whose score is above zero. */
  function SuggestTasks(s: Store, today: int): (r: seq<Suggestion>)
    ensures |r| == Min(SuggestionLimit, |Candidates(s, today)|)
    ensures forall i :: 0 <= i < |r| ==> r[i].score > 0.0
    ensures forall i, j :: 0 <= i < j < |r| ==> r[i].score >= r[j].score
    ensures forall i :: 0 <= i < |r| ==> r[i] == ToSuggestion(Ranked(s, today)[i])
  {
    var ranked := Ranked(s, today);
    Suggestions(ranked[..Min(SuggestionLimit, |ranked|)])
  }

  /** Candidates with equal scores are ranked in key order. */
  lemma RankedTiesInTableOrder(s: Store, today: int)
    requires IdsIncreasing(s.rows)
    ensures var r := Ranked(s, today);
            forall i, j :: 0 <= i < j < |r| && r[i].score == r[j].score ==> r[i].id < r[j].id
  {
    ScoreTiesKeepIdOrder(Candidates(s, today), Ranked(s, today));
  }

  /** Every candidate is suggested, or three suggestions all score at least as much as it. */
  lemma SuggestTakesBest(s: Store, today: int, x: Analyzed)
    requires x in Candidates(s, today)
    ensures var r := SuggestTasks(s, today);
            ToSuggestion(x) in r || (|r| == SuggestionLimit && forall i :: 0 <= i < |r| ==> x.score <= r[i].score)
  {
    var ranked := Ranked(s, today);
    TopTakesBest(ranked, x);
  }

  /** The first three of a best-first sequence include every element, or all score at least as much. */
  lemma TopTakesBest(ranked: seq<Analyzed>, x: Analyzed)
    requires x in ranked
    requires forall i, j :: 0 <= i < j < |ranked| ==> ranked[i].score >= ranked[j].score
    ensures var r := Suggestions(ranked[..Min(SuggestionLimit, |ranked|)]);
            ToSuggestion(x) in r || (|r| == SuggestionLimit && forall i :: 0 <= i < |r| ==> x.score <= r[i].score)
  {
    var p :| 0 <= p < |ranked| && ranked[p] == x;
    var top := ranked[..Min(SuggestionLimit, |ranked|)];
    var r := Suggestions(top);
    if p < SuggestionLimit {
      assert top[p] == x;
    } else {
      forall i | 0 <= i < |r|
        ensures x.score <= r[i].score
      {
        assert r[i] == ToSuggestion(ranked[i]);
      }
    }
  }

  /** The suggest endpoint: only GET is allowed. */
  function SuggestEndpoint(s: Store, m: HttpMethod, today: int): (r: Result<seq<Suggestion>, Response>)
    ensures r.Failure? <==> m != Get
    ensures r.Failure? ==> r.error == MethodNotAllowed
    ensures r.Success? ==> r.value == SuggestTasks(s, today)
  {
    if m == Get then Success(SuggestTasks(s, today)) else Failure(MethodNotAllowed)
  }
}

=== FILE: wrappers.dfy ===
/** Option and Result, the failure-carrying values used across the model. */
module Wrappers {

  datatype Option<+T> = None | Some(value: T)

  datatype Result<+R, +E> = Success(value: R) | Failure(error: E)
}

=== FILE: writes.dfy ===
/**
 * The handlers of backend/tasks/views.py that change the task table:
 * creating a task (with its dependency links and the cycle check),
 * completing one and deleting one. Each returns the response together with
 * the table as the database holds it afterwards; Django's autocommit means
 * every statement that succeeded stays, even when the handler then fails.
 */
module Writes {
  import opened Wrappers
  import opened DependencyGraph
  import opened CycleDetection
  import opened Models
  import opened Views

  // ---------------------------------------------------------- link removal

  /** The links left when the row `id` is deleted: the through-table rows naming it go with it. */
  function Unlink(deps: seq<int>, id: int): (r: seq<int>)
    ensures forall x :: x in r <==> x in deps && x != id
    ensures NoDuplicates(deps) ==> NoDuplicates(r)
    ensures id !in deps ==> r == deps
    decreases |deps|
  {
    if deps == [] then []
    else
      assert NoDuplicates(deps) ==> NoDuplicates(deps[1..]) && deps[0] !in deps[1..] by {
        if NoDuplicates(deps) {
          forall i, j | 0 <= i < j < |deps[1..]|
            ensures deps[1..][i] != deps[1..][j]
          {
            assert deps[1..][i] == deps[i + 1] && deps[1..][j] == deps[j + 1];
          }
        }
      }
      if deps[0] == id then Unlink(deps[1..], id)
      else [deps[0]] + Unlink(deps[1..], id)
  }

  /** `task.delete()` on the rows: the row goes, and every link to it from the other rows. */
  function RemoveRows(rows: seq<Task>, id: int): (r: seq<Task>)
    ensures |r| <= |rows|
    ensures forall i :: 0 <= i < |r| ==> r[i].id != id && id !in r[i].deps
    ensures forall i :: 0 <= i < |r| ==> HasId(rows, r[i].id)
    decreases |rows|
  {
    if rows == [] then []
    else if rows[0].id == id then RemoveRows(rows[1..], id)
    else [rows[0].(deps := Unlink(rows[0].deps, id))] + RemoveRows(rows[1..], id)
  }

  function RemoveTask(s: Store, id: int): Store {
    Store(RemoveRows(s.rows, id), s.nextId)
  }

  /** After the delete, `get` finds no row `id` and finds every other row with its link to `id` dropped. */
  lemma {:induction false} FindAfterRemove(rows: seq<Task>, id: int, d: int)
    ensures Find(RemoveRows(rows, id), d)
         == if d == id || Find(rows, d).None? then None
            else Some(Find(rows, d).value.(deps := Unlink(Find(rows, d).value.deps, id)))
    decreases |rows|
  {
    if rows != [] {
      FindAfterRemove(rows[1..], id, d);
    }
  }

  /** Deleting keeps the primary-key order of the remaining rows. */
  lemma {:induction false} RemoveKeepsOrder(rows: seq<Task>, id: int)
    requires IdsIncreasing(rows)
    ensures IdsIncreasing(RemoveRows(rows, id))
    decreases |rows|
  {
    if rows != [] {
      assert IdsIncreasing(rows[1..]);
      RemoveKeepsOrder(rows[1..], id);
      if rows[0].id != id {
        var rest := RemoveRows(rows[1..], id);
        forall i | 0 <= i < |rest|
          ensures rows[0].id < rest[i].id
        {
          LaterIdsAbove(rows, rest[i].id);
        }
        ConsIncreasing(rows[0].(deps := Unlink(rows[0].deps, id)), rest);
      }
    }
  }

  lemma ConsIncreasing(t: Task, rest: seq<Task>)
    requires IdsIncreasing(rest)
    requires forall i :: 0 <= i < |rest| ==> t.id < rest[i].id
    ensures IdsIncreasing([t] + rest)
  {
    forall i, j | 0 <= i < j < |[t] + rest|
      ensures ([t] + rest)[i].id < ([t] + rest)[j].id
    {
      assert ([t] + rest)[j] == rest[j - 1];
      if i > 0 {
        assert ([t] + rest)[i] == rest[i - 1];
      }
    }
  }

  /** In increasing order, every key after the first row is above the first row's. */
  lemma LaterIdsAbove(rows: seq<Task>, d: int)
    requires IdsIncreasing(rows) && |rows| > 0 && HasId(rows[1..], d)
    ensures rows[0].id < d
  {
    var t := Find(rows[1..], d).value;
    var j :| 0 <= j < |rows[1..]| && rows[1..][j] == t;
    assert rows[j + 1] == t;
  }

  /** Deleting a row of a table with unique keys removes exactly one row. */
  lemma {:induction false} RemoveOneRow(rows: seq<Task>, id: int)
    requires IdsIncreasing(rows)
    ensures |RemoveRows(rows, id)| == if HasId(rows, id) then |rows| - 1 else |rows|
    decreases |rows|
  {
    if rows != [] {
      RemoveOneRow(rows[1..], id);
      if rows[0].id == id {
        assert !HasId(rows[1..], id) by {
          forall i | 0 <= i < |rows[1..]|
            ensures rows[1..][i].id != id
          {
            assert rows[1..][i] == rows[i + 1];
          }
        }
      }
    }
  }

  // ------------------------------------------------------------ completion

  /** Setting `is_completed` on the row `id` and saving it. */
  function MarkCompleted(rows: seq<Task>, id: int): (r: seq<Task>)
    ensures |r| == |rows|
    ensures forall i :: 0 <= i < |rows| ==>
              r[i] == rows[i].(completed := rows[i].completed || rows[i].id == id)
    decreases |rows|
  {
    if rows == [] then []
    else [rows[0].(completed := rows[0].completed || rows[0].id == id)] + MarkCompleted(rows[1..], id)
  }

  /** POST on a task's complete URL: 405 for any other method, 404 for an unknown id. */
  function CompleteTask(s: Store, m: HttpMethod, id: int): (r: Reply)
    ensures m != Post ==> r == Reply(MethodNotAllowed, s)
    ensures m == Post && !HasId(s.rows, id) ==> r == Reply(TaskNotFound, s)
    ensures m == Post && HasId(s.rows, id) ==> r.response == Ok && r.store.nextId == s.nextId
    ensures r.response == Ok ==> r.store == Store(MarkCompleted(s.rows, id), s.nextId)
    ensures |r.store.rows| == |s.rows|
  {
    if m != Post then Reply(MethodNotAllowed, s)
    else if !HasId(s.rows, id) then Reply(TaskNotFound, s)
    else Reply(Ok, Store(MarkCompleted(s.rows, id), s.nextId))
  }

  /** Completing changes no key and no link, so the dependency graph stays the same. */
  lemma {:induction false} MarkCompletedKeepsGraph(rows: seq<Task>, id: int)
    ensures GraphOf(MarkCompleted(rows, id)) == GraphOf(rows)
    decreases |rows|
  {
    if rows != [] {
      MarkCompletedKeepsGraph(rows[1..], id);
      assert MarkCompleted(rows, id)[1..] == MarkCompleted(rows[1..], id);
    }
  }

  lemma CompleteKeepsGraph(s: Store, m: HttpMethod, id: int)
    ensures GraphOf(CompleteTask(s, m, id).store.rows) == GraphOf(s.rows)
  {
    MarkCompletedKeepsGraph(s.rows, id);
  }

  /** Completing is idempotent: a second completion of the same task changes nothing more. */
  lemma CompleteIdempotent(s: Store, id: int)
    ensures var once := CompleteTask(s, Post, id).store;
            CompleteTask(once, Post, id).store == once
  {
    var once := CompleteTask(s, Post, id).store;
    if HasId(s.rows, id) {
      assert MarkCompleted(once.rows, id) == once.rows;
    }
  }

  /** Completing keeps every database guarantee of the table. */
  lemma CompleteKeepsWellFormed(s: Store, m: HttpMethod, id: int)
    requires WellFormed(s)
    ensures WellFormed(CompleteTask(s, m, id).store)
  {
    var t := CompleteTask(s, m, id).store;
    forall d
      ensures HasId(t.rows, d) <==> HasId(s.rows, d)
    {
      GraphOfFind(t.rows, d);
      GraphOfFind(s.rows, d);
      MarkCompletedKeepsGraph(s.rows, id);
    }
  }

  /** Once completed, a task is no longer in the listing. */
  lemma CompleteThenNotListed(s: Store, id: int)
    ensures var l := ListTasks(CompleteTask(s, Post, id).store);
            forall i :: 0 <= i < |l| ==> l[i].id != id
  {
    var t := CompleteTask(s, Post, id).store;
    ListTasksShowsOpenTasks(t, id);
  }

  // -------------------------------------------------------------- deletion

  /** DELETE on a task's delete URL: 405 for any other method, 404 for an unknown id. */
  function DeleteTask(s: Store, m: HttpMethod, id: int): (r: Reply)
    ensures m != Delete ==> r == Reply(MethodNotAllowed, s)
    ensures m == Delete && !HasId(s.rows, id) ==> r == Reply(TaskNotFound, s)
    ensures m == Delete && HasId(s.rows, id) ==> r.response == Deleted && !HasId(r.store.rows, id)
    ensures m == Delete && HasId(s.rows, id) ==> r.store == RemoveTask(s, id)
    ensures r.store.nextId == s.nextId
  {
    if m != Delete then Reply(MethodNotAllowed, s)
    else if !HasId(s.rows, id) then Reply(TaskNotFound, s)
    else
      FindAfterRemove(s.rows, id, id);
      Reply(Deleted, RemoveTask(s, id))
  }

  /** A successful delete removes exactly one row and leaves every other row's key in place. */
  lemma DeleteRemovesOneRow(s: Store, id: int)
    requires IdsIncreasing(s.rows) && HasId(s.rows, id)
    ensures var t := DeleteTask(s, Delete, id).store;
            |t.rows| == |s.rows| - 1
            && forall d :: d != id ==> (HasId(t.rows, d) <==> HasId(s.rows, d))
  {
    RemoveOneRow(s.rows, id);
    forall d | d != id
      ensures HasId(RemoveRows(s.rows, id), d) <==> HasId(s.rows, d)
    {
      FindAfterRemove(s.rows, id, d);
    }
  }

  /** Deleting keeps every database guarantee of the table. */
  lemma RemoveKeepsWellFormed(s: Store, id: int)
    requires WellFormed(s)
    ensures WellFormed(RemoveTask(s, id))
  {
    var r := RemoveRows(s.rows, id);
    RemoveKeepsOrder(s.rows, id);
    RemoveKeepsKeysBelow(s, id);
    forall i | 0 <= i < |r|
      ensures (forall d :: d in r[i].deps ==> HasId(r, d)) && NoDuplicates(r[i].deps)
    {
      RemovedRowLinks(s, id, i);
    }
  }

  lemma RemoveKeepsKeysBelow(s: Store, id: int)
    requires WellFormed(s)
    ensures forall i :: 0 <= i < |RemoveRows(s.rows, id)| ==> RemoveRows(s.rows, id)[i].id < s.nextId
  {
    var r := RemoveRows(s.rows, id);
    forall i | 0 <= i < |r|
      ensures r[i].id < s.nextId
    {
      var t := Find(s.rows, r[i].id).value;
      assert t in s.rows;
    }
  }

  /** A row left by a delete links only to rows that are still there, and at most once to each. */
  lemma RemovedRowLinks(s: Store, id: int, i: nat)
    requires WellFormed(s)
    requires i < |RemoveRows(s.rows, id)|
    ensures var r := RemoveRows(s.rows, id);
            (forall d :: d in r[i].deps ==> HasId(r, d)) && NoDuplicates(r[i].deps)
  {
    var r := RemoveRows(s.rows, id);
    RemoveKeepsOrder(s.rows, id);
    var k := r[i].id;
    FindAfterRemove(s.rows, id, k);
    UniqueFind(r, i);
    var t := Find(s.rows, k).value;
    assert r[i].deps == Unlink(t.deps, id);
    var j :| 0 <= j < |s.rows| && s.rows[j] == t;
    assert NoDuplicates(t.deps);
    forall d | d in r[i].deps
      ensures HasId(r, d)
    {
      assert d in t.deps && d != id;
      assert HasId(s.rows, d);
      FindAfterRemove(s.rows, id, d);
    }
  }

  /** In a table with unique keys `get` finds each row by its own key. */
  lemma {:induction false} UniqueFind(rows: seq<Task>, i: nat)
    requires IdsIncreasing(rows) && i < |rows|
    ensures Find(rows, rows[i].id) == Some(rows[i])
    decreases |rows|
  {
    if i > 0 {
      UniqueFind(rows[1..], i - 1);
    }
  }

  /** The graph after a delete is part of the graph before it. */
  lemma RemoveIsSubgraph(rows: seq<Task>, id: int)
    ensures Subgraph(GraphOf(RemoveRows(rows, id)), GraphOf(rows))
  {
    var r := RemoveRows(rows, id);
    forall a, b | Edge(GraphOf(r), a, b)
      ensures Edge(GraphOf(rows), a, b)
    {
      GraphOfFind(r, a);
      GraphOfFind(rows, a);
      FindAfterRemove(rows, id, a);
    }
  }

  /** Deleting a task cannot create a dependency cycle. */
  lemma DeleteKeepsAcyclic(s: Store, m: HttpMethod, id: int)
    requires Acyclic(GraphOf(s.rows))
    ensures Acyclic(GraphOf(DeleteTask(s, m, id).store.rows))
  {
    RemoveIsSubgraph(s.rows, id);
    SubgraphKeepsAcyclic(GraphOf(RemoveRows(s.rows, id)), GraphOf(s.rows));
  }

  // -------------------------------------------------------------- creation

  /** What the request body holds under one key. */
  datatype Field<T> =
    | Missing                    // the key is absent: `KeyError`
    | Malformed(reason: string)  // the conversion raised; `reason` is the exception's text
    | Given(value: T)

  datatype CreateBody = CreateBody(
    title: Field<string>,
    dueDate: Field<int>,
    hours: Field<real>,
    importance: Field<int>,
    dependencies: Field<seq<int>>)

  /** A POST body, or the text of the error `json.loads` raised on it. */
  datatype CreateRequest = Unreadable(reason: string) | Body(body: CreateBody)

  /** The four column values `Task.objects.create` receives. */
  datatype Columns = Columns(title: string, dueDate: int, hours: real, importance: int)

  /** Reading one key: a missing key answers 400 with the key in quotes, as `str(KeyError)` does. */
  function Require<T>(f: Field<T>, key: string): (r: Result<T, Response>)
    ensures r.Success? <==> f.Given?
    ensures f.Missing? ==> r == Failure(Error(400, "'" + key + "'"))
    ensures f.Malformed? ==> r == Failure(Error(400, f.reason))
    ensures f.Given? ==> r.value == f.value
  {
    match f
    case Missing => Failure(Error(400, "'" + key + "'"))
    case Malformed(reason) => Failure(Error(400, reason))
    case Given(v) => Success(v)
  }

  /** The keyword arguments of `Task.objects.create`, read in source order; the first failure wins. */
  function ReadColumns(b: CreateBody): (r: Result<Columns, Response>)
    ensures r.Success? <==> b.title.Given? && b.dueDate.Given? && b.hours.Given? && b.importance.Given?
    ensures r.Success? ==> r.value == Columns(b.title.value, b.dueDate.value, b.hours.value, b.importance.value)
    ensures b.title.Missing? ==> r == Failure(Error(400, "'title'"))
    ensures b.title.Given? && b.dueDate.Missing? ==> r == Failure(Error(400, "'due_date'"))
  {
    assert "'" + "title" + "'" == "'title'";
    assert "'" + "due_date" + "'" == "'due_date'";
    match Require(b.title, "title")
    case Failure(e) => Failure(e)
    case Success(title) =>
      match Require(b.dueDate, "due_date")
      case Failure(e) => Failure(e)
      case Success(due) =>
        match Require(b.hours, "estimated_hours")
        case Failure(e) => Failure(e)
        case Success(hours) =>
          match Require(b.importance, "importance")
          case Failure(e) => Failure(e)
          case Success(imp) => Success(Columns(title, due, hours, imp))
  }

  /** `add` on a many-to-many relation: a link that already exists is not added again. */
  function AddLink(deps: seq<int>, d: int): (r: seq<int>)
    ensures forall x :: x in r <==> x in deps || x == d
    ensures NoDuplicates(deps) ==> NoDuplicates(r)
    ensures deps <= r
  {
    if d in deps then deps else deps + [d]
  }

  /** The links after the dependency loop, and whether a `get` in it raised. */
  datatype Linking = Linking(deps: seq<int>, failed: bool)

  /**
   * The loop over `body['dependencies']`: each id is looked up, then linked;
   * the first id with no row raises, and the links made before it stay.
   */
  function LinkAll(rows: seq<Task>, deps: seq<int>, ids: seq<int>): (r: Linking)
    ensures !r.failed <==> forall i :: 0 <= i < |ids| ==> HasId(rows, ids[i])
    ensures !r.failed ==> forall x :: x in r.deps <==> x in deps || x in ids
    ensures forall x :: x in r.deps ==> x in deps || HasId(rows, x)
    ensures NoDuplicates(deps) ==> NoDuplicates(r.deps)
    decreases |ids|
  {
    if ids == [] then Linking(deps, false)
    else if !HasId(rows, ids[0]) then Linking(deps, true)
    else
      assert forall x :: x in ids <==> x == ids[0] || x in ids[1..] by {
        assert ids == [ids[0]] + ids[1..];
      }
      assert (forall i :: 0 <= i < |ids| ==> HasId(rows, ids[i]))
         <==> (forall i :: 0 <= i < |ids[1..]| ==> HasId(rows, ids[1..][i])) by {
        if forall i :: 0 <= i < |ids[1..]| ==> HasId(rows, ids[1..][i]) {
          forall i | 0 <= i < |ids|
            ensures HasId(rows, ids[i])
          {
            if i > 0 {
              assert ids[i] == ids[1..][i - 1];
            }
          }
        }
      }
      LinkAll(rows, AddLink(deps, ids[0]), ids[1..])
  }

  /** The loop raised at `ids[k]`: every earlier id resolved, and `linked` holds exactly their links. */
  ghost predicate StoppedAt(rows: seq<Task>, deps: seq<int>, ids: seq<int>, linked: seq<int>, k: int) {
    && 0 <= k < |ids|
    && !HasId(rows, ids[k])
    && (forall i :: 0 <= i < k ==> HasId(rows, ids[i]))
    && (forall x :: x in linked <==> x in deps || x in ids[..k])
  }

  lemma StoppedAtStep(rows: seq<Task>, deps: seq<int>, ids: seq<int>, linked: seq<int>, k: int)
    requires |ids| > 0 && HasId(rows, ids[0])
    requires StoppedAt(rows, AddLink(deps, ids[0]), ids[1..], linked, k)
    ensures StoppedAt(rows, deps, ids, linked, k + 1)
  {
    assert ids[..k + 1] == [ids[0]] + ids[1..][..k];
    forall i | 0 <= i < k + 1
      ensures HasId(rows, ids[i])
    {
      if i > 0 {
        assert ids[i] == ids[1..][i - 1];
      }
    }
    assert ids[k + 1] == ids[1..][k];
  }

  /** When a lookup fails, exactly the ids before the first unknown one have been linked. */
  lemma {:induction false} LinkAllStopsAtFirstMissing(rows: seq<Task>, deps: seq<int>, ids: seq<int>)
    ensures LinkAll(rows, deps, ids).failed ==>
              exists k :: StoppedAt(rows, deps, ids, LinkAll(rows, deps, ids).deps, k)
    decreases |ids|
  {
    if ids != [] {
      if !HasId(rows, ids[0]) {
        assert ids[..0] == [];
        assert StoppedAt(rows, deps, ids, LinkAll(rows, deps, ids).deps, 0);
      } else {
        var deps' := AddLink(deps, ids[0]);
        LinkAllStopsAtFirstMissing(rows, deps', ids[1..]);
        var r := LinkAll(rows, deps', ids[1..]);
        assert LinkAll(rows, deps, ids) == r;
        if r.failed {
          var k :| StoppedAt(rows, deps', ids[1..], r.deps, k);
          StoppedAtStep(rows, deps, ids, r.deps, k);
        }
      }
    }
  }

  /**
   * A create that names an unknown dependency answers 400 yet keeps the new
   * row, linked to exactly the ids listed before the first unknown one.
   */
  lemma UnknownDependencyKeepsEarlierLinks(s: Store, c: Columns, deps: Field<seq<int>>)
    requires !deps.Malformed?
    requires exists i :: 0 <= i < |DepIds(deps)| && !HasId(s.rows + [InsertedRow(s, c)], DepIds(deps)[i])
    ensures var r := InsertAndLink(s, c, deps);
            var ids := DepIds(deps);
            && r.response == NoSuchDependency
            && |r.store.rows| == |s.rows| + 1 && r.store.rows[..|s.rows|] == s.rows
            && r.store.rows[|s.rows|].id == s.nextId
            && exists k :: 0 <= k < |ids| && !HasId(s.rows + [InsertedRow(s, c)], ids[k])
                           && forall x :: x in r.store.rows[|s.rows|].deps <==> x in ids[..k]
  {
    var inserted := s.rows + [InsertedRow(s, c)];
    var ids := DepIds(deps);
    LinkAllStopsAtFirstMissing(inserted, [], ids);
    var l := LinkAll(inserted, [], ids);
    var k :| StoppedAt(inserted, [], ids, l.deps, k);
    var r := InsertAndLink(s, c, deps);
    assert r.store.rows[|s.rows|] == InsertedRow(s, c).(deps := l.deps);
    assert r.store.rows[..|s.rows|] == s.rows;
  }

  /** The ids to link: none when the key is absent, as `'dependencies' in body` skips the loop. */
  function DepIds(f: Field<seq<int>>): seq<int> {
    if f.Given? then f.value else []
  }

  /**
   * POST on the task list. The columns are read first, and a failure there
   * leaves the table alone; otherwise the row is inserted at once.
   */
  function CreateTask(s: Store, req: CreateRequest): (r: Reply)
    ensures req.Unreadable? ==> r == Reply(Error(400, req.reason), s)
    ensures req.Body? && ReadColumns(req.body).Failure? ==> r == Reply(ReadColumns(req.body).error, s)
    ensures req.Body? && ReadColumns(req.body).Success? ==>
              r == InsertAndLink(s, ReadColumns(req.body).value, req.body.dependencies)
  {
    match req
    case Unreadable(reason) => Reply(Error(400, reason), s)
    case Body(b) =>
      match ReadColumns(b)
      case Failure(e) => Reply(e, s)
      case Success(c) => InsertAndLink(s, c, b.dependencies)
  }

  /**
   * The rest of the POST once `Task.objects.create` has saved the row: a
   * failure after this point leaves the row (and any links made) in the
   * table. A detected cycle deletes the row again.
   */
  function InsertAndLink(s: Store, c: Columns, deps: Field<seq<int>>): (r: Reply)
    ensures r.store.nextId == s.nextId + 1
    ensures r.response.Created? ==> r.response.id == s.nextId
                                    && |r.store.rows| == |s.rows| + 1 && r.store.rows[..|s.rows|] == s.rows
    ensures r.response.Created? ==>
              r.store.rows[|s.rows|]
              == InsertedRow(s, c).(deps := LinkAll(s.rows + [InsertedRow(s, c)], [], DepIds(deps)).deps)
    ensures r.response.Created? ==> forall x :: x in r.store.rows[|s.rows|].deps <==> x in DepIds(deps)
    ensures deps.Malformed? ==>
              r == Reply(Error(400, deps.reason), Store(s.rows + [InsertedRow(s, c)], s.nextId + 1))
    ensures var l := LinkAll(s.rows + [InsertedRow(s, c)], [], DepIds(deps));
            !deps.Malformed? && l.failed ==>
              r.response == NoSuchDependency && r.store.rows == s.rows + [InsertedRow(s, c).(deps := l.deps)]
  {
    var id := s.nextId;
    var row := InsertedRow(s, c);
    var inserted := s.rows + [row];
    if deps.Malformed? then Reply(Error(400, deps.reason), Store(inserted, id + 1))
    else
      var l := LinkAll(inserted, [], DepIds(deps));
      var linked := Store(s.rows + [row.(deps := l.deps)], id + 1);
      if l.failed then Reply(NoSuchDependency, linked)
      else if DetectCycle(GraphOf(linked.rows), id) then Reply(CircularDependency, RemoveTask(linked, id))
      else
        assert linked.rows[..|s.rows|] == s.rows;
        Reply(Created(id), linked)
  }

  /** The row `create` saves, before any link. */
  function InsertedRow(s: Store, c: Columns): Task {
    NewTask(s.nextId, c.title, c.dueDate, c.hours, c.importance)
  }

  // ------------------------------------------------- what creation keeps

  /** The next key is above every key in a well-formed table, so no row and no link names it. */
  lemma NextIdIsFresh(s: Store)
    requires WellFormed(s)
    ensures !HasId(s.rows, s.nextId)
    ensures forall i :: 0 <= i < |s.rows| ==> s.nextId !in s.rows[i].deps
  {
    forall i, d | 0 <= i < |s.rows| && d in s.rows[i].deps
      ensures d < s.nextId
    {
      assert HasId(s.rows, d);
      var t := Find(s.rows, d).value;
      assert t in s.rows;
    }
  }

  /** Inserting the row with the next key adds it to the graph as a node nothing points to. */
  lemma InsertedGraph(s: Store, u: Task)
    requires WellFormed(s) && u.id == s.nextId
    ensures GraphOf(s.rows + [u]) == GraphOf(s.rows)[u.id := u.deps]
    ensures u.id !in GraphOf(s.rows)
    ensures forall a :: a in GraphOf(s.rows) ==> u.id !in GraphOf(s.rows)[a]
    ensures forall d :: HasId(s.rows + [u], d) <==> d == u.id || HasId(s.rows, d)
  {
    NextIdIsFresh(s);
    GraphOfAppend(s.rows, u);
    GraphOfFind(s.rows, u.id);
    forall a | a in GraphOf(s.rows)
      ensures u.id !in GraphOf(s.rows)[a]
    {
      GraphOfFind(s.rows, a);
      var t := Find(s.rows, a).value;
      var j :| 0 <= j < |s.rows| && s.rows[j] == t;
    }
    AppendedIds(s.rows, u);
  }

  /** After appending `u`, `get` resolves its key and every key it resolved before. */
  lemma AppendedIds(rows: seq<Task>, u: Task)
    requires !HasId(rows, u.id)
    ensures forall d :: HasId(rows + [u], d) <==> d == u.id || HasId(rows, d)
  {
    forall d
      ensures HasId(rows + [u], d) <==> d == u.id || HasId(rows, d)
    {
      FindAppend(rows, u, d);
    }
  }

  /** A new row that does not link to itself cannot close a cycle in an acyclic table. */
  lemma InsertKeepsAcyclic(s: Store, u: Task)
    requires WellFormed(s) && Acyclic(GraphOf(s.rows))
    requires u.id == s.nextId && u.id !in u.deps
    ensures Acyclic(GraphOf(s.rows + [u]))
  {
    InsertedGraph(s, u);
    AddSourceKeepsAcyclic(GraphOf(s.rows), u.id, u.deps);
  }

  /** In an acyclic table, `detect_cycle` on the new row fires exactly when the row links to itself. */
  lemma InsertCycleIffSelfLink(s: Store, u: Task)
    requires WellFormed(s) && Acyclic(GraphOf(s.rows))
    requires u.id == s.nextId
    ensures DetectCycle(GraphOf(s.rows + [u]), u.id) <==> u.id in u.deps
  {
    var g := GraphOf(s.rows + [u]);
    InsertedGraph(s, u);
    if u.id in u.deps {
      assert Edge(g, u.id, u.id);
      SelfDependencyDetected(g, u.id);
    } else {
      InsertKeepsAcyclic(s, u);
      DetectCycleCorrect(g, u.id);
    }
  }

  /** A row with the next key, valid links and no repeated link keeps the table well formed. */
  lemma InsertKeepsWellFormed(s: Store, u: Task)
    requires WellFormed(s) && u.id == s.nextId
    requires NoDuplicates(u.deps)
    requires forall d :: d in u.deps ==> d == u.id || HasId(s.rows, d)
    ensures WellFormed(Store(s.rows + [u], s.nextId + 1))
  {
    var rows := s.rows + [u];
    InsertedGraph(s, u);
    forall i, d | 0 <= i < |rows| && d in rows[i].deps
      ensures HasId(rows, d)
    {
      if i < |s.rows| {
        assert rows[i] == s.rows[i];
      }
    }
    forall i, j | 0 <= i < j < |rows|
      ensures rows[i].id < rows[j].id
    {
      if j < |s.rows| {
        assert rows[i] == s.rows[i] && rows[j] == s.rows[j];
      } else {
        assert rows[i] == s.rows[i];
      }
    }
    forall i | 0 <= i < |rows|
      ensures rows[i].id < s.nextId + 1 && NoDuplicates(rows[i].deps)
    {
      if i < |s.rows| {
        assert rows[i] == s.rows[i];
      }
    }
  }

  /** Deleting the row just inserted, which nothing links to, gives back the rows before it. */
  lemma {:induction false} RemoveFresh(rows: seq<Task>, u: Task)
    requires forall i :: 0 <= i < |rows| ==> rows[i].id != u.id && u.id !in rows[i].deps
    ensures RemoveRows(rows + [u], u.id) == rows
    decreases |rows|
  {
    if rows == [] {
      assert RemoveRows([u], u.id) == RemoveRows([], u.id);
    } else {
      assert (rows + [u])[1..] == rows[1..] + [u];
      RemoveFresh(rows[1..], u);
      assert rows == [rows[0]] + rows[1..];
    }
  }

  // ------------------------------------------------------ create outcomes

  /** An id the loop can link: a row in the table, or the row this request has just inserted. */
  predicate Resolves(s: Store, d: int) {
    d == s.nextId || HasId(s.rows, d)
  }

  /**
   * For a body whose columns read and whose `dependencies` key is absent or
   * a list, over a well-formed acyclic table: the request fails on an unknown
   * id, is rejected as circular exactly when it lists the id it is about to
   * receive, and is created otherwise.
   */
  lemma CreateOutcome(s: Store, b: CreateBody)
    requires WellFormed(s) && Acyclic(GraphOf(s.rows))
    requires ReadColumns(b).Success? && !b.dependencies.Malformed?
    ensures var ids := DepIds(b.dependencies);
            var r := CreateTask(s, Body(b));
            && (r.response == NoSuchDependency <==> exists i :: 0 <= i < |ids| && !Resolves(s, ids[i]))
            && (r.response == CircularDependency <==>
                  (forall i :: 0 <= i < |ids| ==> Resolves(s, ids[i])) && s.nextId in ids)
            && (r.response.Created? <==>
                  (forall i :: 0 <= i < |ids| ==> Resolves(s, ids[i])) && s.nextId !in ids)
  {
    var c := ReadColumns(b).value;
    var u0 := InsertedRow(s, c);
    InsertedGraph(s, u0);
    var l := LinkAll(s.rows + [u0], [], DepIds(b.dependencies));
    InsertCycleIffSelfLink(s, u0.(deps := l.deps));
  }

  lemma InsertAndLinkKeepsWellFormed(s: Store, c: Columns, deps: Field<seq<int>>)
    requires WellFormed(s)
    ensures WellFormed(InsertAndLink(s, c, deps).store)
  {
    var u0 := InsertedRow(s, c);
    if deps.Malformed? {
      InsertKeepsWellFormed(s, u0);
    } else {
      var l := LinkAll(s.rows + [u0], [], DepIds(deps));
      var linked := Store(s.rows + [u0.(deps := l.deps)], s.nextId + 1);
      LinkedKeepsWellFormed(s, u0, DepIds(deps));
      if InsertAndLink(s, c, deps).store != linked {
        assert InsertAndLink(s, c, deps).store == RemoveTask(linked, s.nextId);
        RemoveKeepsWellFormed(linked, s.nextId);
      }
    }
  }

  /** The new row with the links the loop made, whether or not it stopped early, keeps the table well formed. */
  lemma LinkedKeepsWellFormed(s: Store, u0: Task, ids: seq<int>)
    requires WellFormed(s) && u0.id == s.nextId && u0.deps == []
    ensures var l := LinkAll(s.rows + [u0], [], ids);
            WellFormed(Store(s.rows + [u0.(deps := l.deps)], s.nextId + 1))
  {
    var l := LinkAll(s.rows + [u0], [], ids);
    NextIdIsFresh(s);
    AppendedIds(s.rows, u0);
    assert NoDuplicates(l.deps);
    InsertKeepsWellFormed(s, u0.(deps := l.deps));
  }

  /** Every create, whatever its outcome, leaves the database guarantees in place. */
  lemma CreateKeepsWellFormed(s: Store, req: CreateRequest)
    requires WellFormed(s)
    ensures WellFormed(CreateTask(s, req).store)
  {
    if req.Body? && ReadColumns(req.body).Success? {
      InsertAndLinkKeepsWellFormed(s, ReadColumns(req.body).value, req.body.dependencies);
    }
  }

  /**
   * A create rejected by the cycle check leaves the rows as they were; only
   * the key counter moved on. (An earlier failure whose exception text happens
   * to read like the rejection leaves the table untouched instead.)
   */
  lemma CircularCreateRestoresRows(s: Store, b: CreateBody)
    requires WellFormed(s)
    requires ReadColumns(b).Success? && !b.dependencies.Malformed?
    ensures CreateTask(s, Body(b)).response == CircularDependency ==>
              CreateTask(s, Body(b)).store == Store(s.rows, s.nextId + 1)
  {
    var u0 := InsertedRow(s, ReadColumns(b).value);
    var l := LinkAll(s.rows + [u0], [], DepIds(b.dependencies));
    NextIdIsFresh(s);
    RemoveFresh(s.rows, u0.(deps := l.deps));
  }

  lemma InsertAndLinkKeepsAcyclic(s: Store, c: Columns, deps: Field<seq<int>>)
    requires WellFormed(s) && Acyclic(GraphOf(s.rows))
    ensures var r := InsertAndLink(s, c, deps);
            r.response != NoSuchDependency ==> Acyclic(GraphOf(r.store.rows))
  {
    var u0 := InsertedRow(s, c);
    if deps.Malformed? {
      InsertKeepsAcyclic(s, u0);
    } else {
      var l := LinkAll(s.rows + [u0], [], DepIds(deps));
      var u := u0.(deps := l.deps);
      NextIdIsFresh(s);
      RemoveFresh(s.rows, u);
      InsertCycleIffSelfLink(s, u);
      if u.id !in u.deps {
        InsertKeepsAcyclic(s, u);
      }
    }
  }

  /** Over an acyclic table, every create that does not fail on an unknown id leaves it acyclic. */
  lemma CreateKeepsAcyclic(s: Store, req: CreateRequest)
    requires WellFormed(s) && Acyclic(GraphOf(s.rows))
    ensures var r := CreateTask(s, req);
            r.response != NoSuchDependency ==> Acyclic(GraphOf(r.store.rows))
  {
    if req.Body? && ReadColumns(req.body).Success? {
      InsertAndLinkKeepsAcyclic(s, ReadColumns(req.body).value, req.body.dependencies);
    }
  }

  lemma EmptyTableAcyclic()
    ensures Acyclic(GraphOf([]))
  {
    forall n
      ensures !CycleReachable(GraphOf([]), n)
    {
      NoCycleThroughSuccessors(GraphOf([]), n);
    }
  }

  /**
   * The unknown-id failure does not undo what came before it: on an empty
   * table whose next key is 1, a body listing `[1, 2]` links the new row to
   * itself, then fails on 2; the 400 goes out and the self-linked row stays.
   */
  lemma PartialCreateCanPersistCycle()
    ensures var s := Store([], 1);
            var b := CreateBody(Given("A"), Given(0), Given(1.0), Given(5), Given([1, 2]));
            var r := CreateTask(s, Body(b));
            && WellFormed(s) && Acyclic(GraphOf(s.rows))
            && r.response == NoSuchDependency
            && r.store.rows == [Task(1, "A", 0, 1.0, 5, [1], false)]
            && !Acyclic(GraphOf(r.store.rows))
  {
    var s := Store([], 1);
    var b := CreateBody(Given("A"), Given(0), Given(1.0), Given(5), Given([1, 2]));
    var u0 := NewTask(1, "A", 0, 1.0, 5);
    assert HasId([u0], 1) && !HasId([u0], 2);
    assert LinkAll([u0], [], [1, 2]) == Linking([1], true);
    EmptyTableAcyclic();
    var rows := [Task(1, "A", 0, 1.0, 5, [1], false)];
    GraphOfRow(rows, 0);
    SelfEdgeIsCycle(GraphOf(rows), 1);
  }

  /**
   * Creation as one transaction: a request that is not created leaves the
   * table exactly as it was. Responses are those of `CreateTask`.
   */
  function CreateTaskAtomic(s: Store, req: CreateRequest): (r: Reply)
    ensures r.response == CreateTask(s, req).response
    ensures !r.response.Created? ==> r.store == s
    ensures r.response.Created? ==> r.store == CreateTask(s, req).store
  {
    var w := CreateTask(s, req);
    if w.response.Created? then w else Reply(w.response, s)
  }

  /** With the transaction, no request can leave a cycle or break a database guarantee. */
  lemma CreateAtomicKeepsInvariant(s: Store, req: CreateRequest)
    requires WellFormed(s) && Acyclic(GraphOf(s.rows))
    ensures WellFormed(CreateTaskAtomic(s, req).store)
    ensures Acyclic(GraphOf(CreateTaskAtomic(s, req).store.rows))
  {
    CreateKeepsWellFormed(s, req);
    CreateKeepsAcyclic(s, req);
  }

  /** Creation runs no field validator: an empty title, zero hours and importance 0 are all stored. */
  lemma CreateSkipsValidation()
    ensures var b := CreateBody(Given(""), Given(0), Given(0.0), Given(0), Missing);
            var r := CreateTask(Store([], 1), Body(b));
            r.response == Created(1) && |r.store.rows| == 1 && !Valid(r.store.rows[0])
  {
    var u0 := NewTask(1, "", 0, 0.0, 0);
    EmptyTableAcyclic();
    InsertCycleIffSelfLink(Store([], 1), u0);
  }

  // ------------------------------------------------------------- routing

  /** What the task-list view answers: the listing, a create's reply, or nothing at all. */
  datatype ListOutcome =
    | Listing(entries: seq<Listed>)
    | Handled(reply: Reply)
    | NoResponse   // neither GET nor POST: the view returns `None`, which Django turns into a server error

  function TaskListEndpoint(s: Store, m: HttpMethod, req: CreateRequest): (r: ListOutcome)
    ensures r.Listing? <==> m == Get
    ensures r.Handled? <==> m == Post
    ensures r.Listing? ==> r.entries == ListTasks(s)
    ensures r.Handled? ==> r.reply == CreateTask(s, req)
  {
    match m
    case Get => Listing(ListTasks(s))
    case Post => Handled(CreateTask(s, req))
    case _ => NoResponse
  }
}
